=== FILE: README.md ===
# Reservation store — a Dafny model

This project models the core of a small Java servlet application for
restaurant reservations. The core is the reservation store
`ReservationDAO`: an ordered list of `Reservation` records plus an id
counter. Around it sit:

- the comma-separated line format the store saves, loads and imports;
- the search/sort of the list view;
- the paging of the list view;
- the checks that the add and update forms go through before the store is
  called;
- the rows of the CSV export.

Everything is modelled as immutable datatypes and pure functions:

- `Store(records, counter)`, with each operation returning the new store
  and the boolean the Java method returns;
- Java `int` as the subset type `Int32`, with wrap-around written out where
  the source can overflow (`incrementAndGet`, the page arithmetic);
- `LocalDateTime` as a concrete calendar value with its ISO rendering and
  parser, so the line round trip is proved rather than assumed.

Modules, in dependency order:

| file | module | what it holds |
|---|---|---|
| results.dfy | Results | `Option`, `Result` |
| ints.dfy | Ints | `Int32`, wrap-around, `%d`, `Integer.parseInt` |
| text.dfy | Text | ASCII case folding, `trim`, `contains`, `compareTo`, `split(",")` |
| datetimes.dfy | DateTimes | `LocalDateTime`, `isBefore`, ISO format and `toString`, `parse` |
| seqs.dfy | Seqs | order-preserving subsequences, filtering, collecting the values of marked elements |
| reservations.dfy | Reservations | the `Reservation` record, the duplicate key, uniqueness predicates |
| linecodec.dfy | LineCodec | the saved line, its parse, `readLine` line splitting |
| store.dfy | ReservationStore | add, update, delete, cleanup, lookups, import, save and load |
| store_lemmas.dfy | StoreProperties | invariants each operation keeps, fresh ids, save/load round trip |
| searchsort.dfy | SearchSort | the search filter and the stable sort |
| paging.dfy | Paging | page slice as written and as intended, page count |
| servlet.dfy | Servlet | list view, form checks, add/update handling, CSV export |

The store invariants are:

- `KeyUnique`: no two records share (name ignoring case, time, seats
  ignoring case).
- `IdsUnique`: no two records share an id.
- `CounterCovers`: the counter is at least every stored id.

`KeyUnique` and `IdsUnique` fail after loading a file with repeated lines,
because loading checks neither ids nor keys (`LoadKeepsRepeatedLines`).
`CounterCovers` holds after loading and every operation keeps it, except
that adding at the `int` limit wraps the counter to the least `int`, after
which an assigned id can repeat (`AddAtMaxIntReusesId`). The lemmas
therefore say which operations preserve which invariant.

## Model

| member | source | states |
|---|---|---|
| Ints.Succ | src/main/java/com/example/reservation/ReservationDAO.java:45 | `incrementAndGet` adds one below the `int` limit and wraps to the smallest `int` at it |
| Ints.ParseInt | src/main/java/com/example/reservation/ReservationDAO.java:109 | a value is returned exactly for an optional `-` or `+` followed by at least one ASCII digit whose signed decimal value lies in the `int` range, and it is that value |
| Ints.FormatParseRoundTrip | src/main/java/com/example/reservation/ReservationDAO.java:145-150 | what `%d` writes, `Integer.parseInt` reads back as the same `int` |
| Text.ToLower | src/main/java/com/example/reservation/ReservationDAO.java:83 | lower-casing keeps the length and folds each character on its own |
| Text.Trim | src/main/java/com/example/reservation/ReservationDAO.java:82 | the trimmed text is empty exactly when every character is at most a space |
| Text.TrimKeepsMiddle | src/main/java/com/example/reservation/ReservationDAO.java:82 | the trimmed text is a slice of the text with only characters at most a space before and after it, and when not empty it starts and ends with a character above a space |
| Text.Contains | src/main/java/com/example/reservation/ReservationDAO.java:83-84 | true exactly when the needle occurs at some position of the text |
| Text.CompareToZero | src/main/java/com/example/reservation/ReservationDAO.java:89 | `compareTo` is 0 exactly for equal names |
| Text.CompareToAntisymmetric | src/main/java/com/example/reservation/ReservationDAO.java:89 | `a.compareTo(b) < 0` exactly when `b.compareTo(a) > 0` |
| Text.CompareToTransitive | src/main/java/com/example/reservation/ReservationDAO.java:89 | the name order is transitive |
| Text.Split | src/main/java/com/example/reservation/ReservationDAO.java:106 | a line without a comma comes back whole; no field contains a comma |
| Text.SplitJoinsBack | src/main/java/com/example/reservation/ReservationDAO.java:106 | the fields, followed by some number of empty fields and joined with commas, give the line back; when the line holds a comma the last field is not empty |
| Text.JoinPieces | src/main/java/com/example/reservation/ReservationDAO.java:106 | the pieces of a line, rejoined with the separator, are the line |
| Text.DropTrailingEmpty | src/main/java/com/example/reservation/ReservationDAO.java:106 | the result is a prefix of the pieces that does not end in an empty piece, and only empty pieces were dropped |
| DateTimes.IsBeforeIsStrictTotalOrder | src/main/java/com/example/reservation/ReservationDAO.java:91 | `isBefore` is irreflexive, asymmetric, transitive and total on distinct times |
| DateTimes.ParseTime | src/main/java/com/example/reservation/ReservationDAO.java:111 | every text of the ISO shape (`T` or `t`, seconds optional) that names a valid date and time is accepted |
| DateTimes.FormatIsoParseRoundTrip | src/main/java/com/example/reservation/ReservationDAO.java:148 | what `format(ISO_LOCAL_DATE_TIME)` writes, `parse` reads back as the same time |
| DateTimes.ToStringParseRoundTrip | src/main/java/com/example/reservation/ReservationServlet.java:198 | what `toString` writes (seconds left out when zero), `parse` reads back as the same time |
| DateTimes.ParseTimeReadsRendering | src/main/java/com/example/reservation/ReservationDAO.java:111 | an accepted text has 16 or 19 characters and is, up to the case of the `T`, the ISO rendering with seconds or the seconds-free rendering of the time returned, whose second is then 0 |
| DateTimes.RenderingsUseTimeChars | src/main/java/com/example/reservation/ReservationDAO.java:148 | both renderings of a time consist of digits, `-`, `:` and `T` only |
| LineCodec.ParseLine | src/main/java/com/example/reservation/ReservationDAO.java:106-113 | fewer than five fields is exactly the silent skip; a parsed record's name and seats are fields 2 and 5 of the split line, which hold no comma |
| LineCodec.ParseLineFields | src/main/java/com/example/reservation/ReservationDAO.java:106-113 | with five fields or more, a record is returned exactly when id, time and party size parse, and it holds those values with fields 2 and 5 as name and seats; a bad id, or a bad party size after a good time, is a bad integer; a bad time after a good id is a bad time |
| LineCodec.ParseLineReadsFirstFive | src/main/java/com/example/reservation/ReservationDAO.java:107-113 | two lines that agree on their first five fields parse alike |
| LineCodec.LineRoundTrip | src/main/java/com/example/reservation/ReservationDAO.java:145-150 | a saved line parses back to the record when name and seats hold no comma and seats is not empty |
| LineCodec.ExtraFieldsIgnored | src/main/java/com/example/reservation/ReservationDAO.java:107 | a saved line with any further fields appended still parses to the record |
| LineCodec.EmptySeatsLineSkipped | src/main/java/com/example/reservation/ReservationDAO.java:145-150 | a record with empty seats is saved as a line that loses its last field and is skipped |
| LineCodec.ReadLinesSplitsText | src/main/java/com/example/reservation/ReservationDAO.java:105 | the text is the lines each followed by its terminator (`\n`, `\r` or `\r\n`; only the last line may have none); no line holds a terminator, and a `\r` terminator is never followed by `\n` |
| LineCodec.ReadWriteLines | src/main/java/com/example/reservation/ReservationDAO.java:165 | lines without terminators, written one per line and read back, are the same lines |
| LineCodec.FormatLineHasNoLineBreak | src/main/java/com/example/reservation/ReservationDAO.java:145-150 | a saved line holds a terminator only if the name or seats does |
| ReservationStore.GetById | src/main/java/com/example/reservation/ReservationDAO.java:34-39 | the first record carrying the id, or none exactly when no record carries it |
| ReservationStore.IsDuplicate | src/main/java/com/example/reservation/ReservationDAO.java:127-132 | true exactly when some record matches name and seats ignoring case and the time exactly |
| ReservationStore.IsDuplicateExcept | src/main/java/com/example/reservation/ReservationDAO.java:134-140 | true exactly when some record with a different id matches the key |
| ReservationStore.Add | src/main/java/com/example/reservation/ReservationDAO.java:41-49 | refused, with the store unchanged, exactly when a stored record matches the key; otherwise the counter is incremented and one record with the new counter as id is appended |
| ReservationStore.Update | src/main/java/com/example/reservation/ReservationDAO.java:51-64 | succeeds exactly when no record of another id matches the key and some record has the id; then only the first record with the id is replaced in place, with length and counter unchanged; otherwise nothing changes |
| ReservationStore.Delete | src/main/java/com/example/reservation/ReservationDAO.java:66-71 | the result keeps, in order and with multiplicity, exactly the records with other ids; true exactly when some record had the id; false leaves the store unchanged |
| ReservationStore.Cleanup | src/main/java/com/example/reservation/ReservationDAO.java:73-78 | the result keeps, in order and with multiplicity, exactly the records not strictly before `now`; a record at `now` stays |
| ReservationStore.ImportLine | src/main/java/com/example/reservation/ReservationDAO.java:106-121 | a line is malformed exactly when it does not parse, and inserted exactly when it parses to a record whose key is free and id unused; only an insertion changes the store, appending the record and raising the counter to its id |
| ReservationStore.Import | src/main/java/com/example/reservation/ReservationDAO.java:103-125 | one outcome per line read |
| ReservationStore.SaveLines | src/main/java/com/example/reservation/ReservationDAO.java:142-151 | one saved line per record, in store order; the line of a safe record parses back to it, and holds no terminator when name and seats hold none |
| ReservationStore.MaxId | src/main/java/com/example/reservation/ReservationDAO.java:164-176 | the counter set by loading is non-negative, at least every id, and either 0 or some record's id |
| ReservationStore.Load | src/main/java/com/example/reservation/ReservationDAO.java:157-182 | the loaded records are the parsed records of the lines that parse, in file order; the counter covers every id and is 0 or a loaded id |
| ReservationStore.LoadedRecords | src/main/java/com/example/reservation/ReservationDAO.java:165-176 | a record is loaded exactly when some line of the file parses to it |
| StoreProperties.AddKeepsKeyUnique | src/main/java/com/example/reservation/ReservationDAO.java:41-49 | add never creates two records with the same key |
| StoreProperties.AddAssignsFreshId | src/main/java/com/example/reservation/ReservationDAO.java:45-46 | below the `int` limit, the id add assigns exceeds every stored id, so ids stay unique and the counter keeps covering them |
| StoreProperties.AddAtMaxIntReusesId | src/main/java/com/example/reservation/ReservationDAO.java:45 | at the `int` limit the counter wraps and add can hand out an id already stored |
| StoreProperties.UpdateKeepsInvariants | src/main/java/com/example/reservation/ReservationDAO.java:51-64 | update keeps ids unique and the counter covering, and keeps keys unique when ids are unique |
| StoreProperties.UpdateWithSharedIdBreaksKeyUnique | src/main/java/com/example/reservation/ReservationDAO.java:53-58 | with two records sharing an id, an update can create a key duplicate |
| StoreProperties.UpdateOwnKeyAllowed | src/main/java/com/example/reservation/ReservationDAO.java:134-140 | re-submitting a record's own key under its own id is accepted |
| StoreProperties.DeleteKeepsInvariants | src/main/java/com/example/reservation/ReservationDAO.java:66-71 | delete keeps every invariant |
| StoreProperties.CleanupKeepsInvariants | src/main/java/com/example/reservation/ReservationDAO.java:73-78 | cleanup keeps every invariant |
| StoreProperties.ImportLineKeepsInvariants | src/main/java/com/example/reservation/ReservationDAO.java:114-118 | one imported line keeps every invariant and never lowers the counter |
| StoreProperties.ImportKeepsInvariants | src/main/java/com/example/reservation/ReservationDAO.java:103-125 | import keeps key uniqueness, id uniqueness and the counter bound, and never lowers the counter |
| StoreProperties.ImportAppends | src/main/java/com/example/reservation/ReservationDAO.java:103-125 | import keeps the old records as a prefix and appends, in file order, exactly the parsed records of the lines reported as inserted |
| StoreProperties.ImportConcat | src/main/java/com/example/reservation/ReservationDAO.java:104-123 | importing two blocks of lines in one call is importing the first, then the second into the store the first left, with the outcomes concatenated |
| StoreProperties.ImportByLine | src/main/java/com/example/reservation/ReservationDAO.java:104-123 | the outcome of line k is that of the single-line import applied to the store the first k lines left, and that step leaves the store of the first k + 1 lines |
| StoreProperties.ImportOutcomesFollowParse | src/main/java/com/example/reservation/ReservationDAO.java:105-121 | every line's outcome follows its own parse; exactly the lines with a bad integer or time are warnings |
| StoreProperties.LoadRecordsStep | src/main/java/com/example/reservation/ReservationDAO.java:165-176 | a line that parses puts its record before those of the later lines; a line that does not parse adds nothing |
| StoreProperties.SaveLoadRoundTrip | src/main/java/com/example/reservation/ReservationDAO.java:142-182 | loading the saved lines gives the same records in order, with the largest id as counter |
| StoreProperties.ReloadKeepsCounterBound | src/main/java/com/example/reservation/ReservationDAO.java:164-182 | reloading a saved store keeps its records and never raises its counter |
| StoreProperties.FileRoundTrip | src/main/java/com/example/reservation/ReservationDAO.java:142-182 | the save/load round trip holds through the file text when names and seats hold no line terminator |
| StoreProperties.LoadKeepsRepeatedLines | src/main/java/com/example/reservation/ReservationDAO.java:165-176 | a file with the same line twice loads both copies, breaking id and key uniqueness |
| SearchSort.Filter | src/main/java/com/example/reservation/ReservationDAO.java:81-85 | the kept records are an order-preserving subsequence of the store; a missing or blank term keeps everything |
| SearchSort.FilterCounts | src/main/java/com/example/reservation/ReservationDAO.java:81-85 | each matching record is kept exactly as often as the store holds it, and no other record is kept |
| SearchSort.InOrderIsTotalPreorder | src/main/java/com/example/reservation/ReservationDAO.java:87-98 | both comparators, plain or reversed, are total and transitive, with ties exactly on equal keys |
| SearchSort.SortSorts | src/main/java/com/example/reservation/ReservationDAO.java:94-98 | the sorted list is in comparator order |
| SearchSort.SortIsStable | src/main/java/com/example/reservation/ReservationDAO.java:94-98 | records with equal keys keep their relative order, ascending and descending alike |
| SearchSort.SortedStableIsUnique | src/main/java/com/example/reservation/ReservationDAO.java:94-98 | any two sorted lists with the same records of each key in the same order are equal, so the stable sort's result is determined |
| SearchSort.SearchAndSort | src/main/java/com/example/reservation/ReservationDAO.java:80-101 | a permutation of the filtered list; unchanged when no sort is selected; otherwise sorted and stable against the filtered order |
| Paging.PageCount | src/main/java/com/example/reservation/ReservationServlet.java:47 | the fewest pages of five that hold all results |
| Paging.PageSlice | src/main/java/com/example/reservation/ReservationServlet.java:43-45 | as the servlet computes it on `int`s: defined exactly when the wrapped start lies within the results and the wrapped end does not overflow, and then the up to five records from the wrapped start |
| Paging.PageSliceIntended | src/main/java/com/example/reservation/ReservationServlet.java:43-45 | defined exactly for pages from 1 to one past the last record, and then the up to five records from `(page - 1) * 5` |
| Paging.PageSliceAgreesWithoutOverflow | src/main/java/com/example/reservation/ReservationServlet.java:43-45 | when the page arithmetic stays in the `int` range the servlet's slice is the intended one |
| Paging.ListedPagesAgree | src/main/java/com/example/reservation/ReservationServlet.java:43-47 | every page from 1 to the page count is shown as intended |
| Paging.PageSliceOverflow | src/main/java/com/example/reservation/ReservationServlet.java:43-45 | page 858993461 shows records 5 to 9 instead of being refused |
| Paging.PagesWithinCount | src/main/java/com/example/reservation/ReservationServlet.java:43-47 | pages 1 to the count hold one to five records; later pages are empty or refused |
| Paging.PagesCoverResults | src/main/java/com/example/reservation/ReservationServlet.java:43-47 | pages 1 to the count, end to end, are exactly the result list |
| Servlet.ListPage | src/main/java/com/example/reservation/ReservationServlet.java:30-54 | an unparsable page number fails the request and an absent one means page 1; a parsed page number fails exactly when its intended slice does, and is the current page; the view holds the page count and the intended slice of the search results |
| Servlet.ListPageAsServlet | src/main/java/com/example/reservation/ReservationServlet.java:38-45 | wherever the page arithmetic stays in the `int` range, the view fails exactly when the servlet's own slice does and shows the same records |
| Servlet.Validate | src/main/java/com/example/reservation/ReservationServlet.java:117-155 | an accepted form hands on the untrimmed name and seats, the parsed party size and a parsed time not before `now` |
| Servlet.ValidateReportsFirstFailedCheck | src/main/java/com/example/reservation/ReservationServlet.java:122-155 | the error shown is exactly that of the first failed check in running order |
| Servlet.ValidateSucceedsIffAllPass | src/main/java/com/example/reservation/ReservationServlet.java:122-155 | a form is accepted exactly when it passes all six checks |
| Servlet.PartySizeNotRangeChecked | src/main/java/com/example/reservation/ReservationServlet.java:122-128 | any parseable party size, zero and negative included, is accepted and handed on |
| Servlet.BlankTimeIsInvalid | src/main/java/com/example/reservation/ReservationServlet.java:136-149 | a time of blanks is reported as unparsable, not as missing |
| Servlet.HandleAddOrUpdate | src/main/java/com/example/reservation/ReservationServlet.java:115-176 | a failed check shows its message with the store unchanged, and a check message appears only then; after the checks, the duplicate message is shown exactly when `addReservation` or `updateReservation` refuses; only a redirect changes the store, by appending (add) or replacing one record (update); an update id that does not parse ends in an exception |
| Servlet.HandleAddCallsAdd | src/main/java/com/example/reservation/ReservationServlet.java:156-158 | after the checks pass, an add leaves the store exactly as `addReservation` does |
| Servlet.HandleUpdateCallsUpdate | src/main/java/com/example/reservation/ReservationServlet.java:159-161 | after the checks pass, an update leaves the store exactly as `updateReservation` on the parsed id does, and unchanged when the id does not parse |
| Servlet.UpdateOfMissingIdLooksLikeDuplicate | src/main/java/com/example/reservation/ReservationServlet.java:160-168 | updating an id no record carries shows the duplicate message and changes nothing |
| Servlet.HandleKeepsKeyUnique | src/main/java/com/example/reservation/ReservationServlet.java:156-162 | a submitted form never breaks key uniqueness (updates given unique ids) |
| Servlet.ExportRows | src/main/java/com/example/reservation/ReservationServlet.java:192-201 | one row per record in store order; the row of a safe record parses back to it, and holds no terminator when name and seats hold none |
| Servlet.ExportReadsBack | src/main/java/com/example/reservation/ReservationServlet.java:190-201 | read line by line, an export is the header followed by the rows |
| Servlet.ExportRowParses | src/main/java/com/example/reservation/ReservationServlet.java:195-200 | an export row of a safe record parses back to the record |
| Servlet.ExportHeaderIsBadInteger | src/main/java/com/example/reservation/ReservationServlet.java:190 | the header line, read as data, fails on its id field |
| Servlet.ExportImportsBack | src/main/java/com/example/reservation/ReservationServlet.java:190-201 | importing an export warns on the header and parses every further line to its record |

## Left out

- File I/O: opening, writing and reading `reservations.dat`; the static
  initialiser that loads on class load; and swallowed `IOException`s. The
  model keeps the line format and the line parse, and reads files as
  `ReadLines` of their text.
- Concurrency: `CopyOnWriteArrayList`, `AtomicInteger`, and the
  check-then-act races between `isDuplicate` and the insertion. Every
  operation runs alone.
- The clock: `LocalDateTime.now()` is the parameter `now`. `cleanUpPastReservations`
  reads the clock once per record; the model uses one instant for all.
- Servlet plumbing: request dispatch by `action`, JSP forwarding,
  redirects, multipart `Part` handling, response headers and charset,
  request attributes, and `System.err` logging. The `edit` and `delete`
  branches parse an id and call `GetById` or `Delete`; `clean_up` parses
  nothing and calls `Cleanup` at the clock's instant; `import_csv` calls
  `Import` on the upload.
- The `import_csv` upload: decoding the file as UTF-8, the error message
  for a missing or empty file, and the catch that turns any exception
  raised during the import into an error message. The model starts from
  the upload's lines (`ReadLines`).
- `getAllReservations` returns a copy; values are immutable here, so the
  records themselves stand for the copy.
- Unicode: `toLowerCase`/`equalsIgnoreCase` fold ASCII letters only, and
  the model ignores that `toLowerCase()` follows the default locale (under
  a Turkish locale `I` lowers to a dotless `ı`);
  `Integer.parseInt` accepts ASCII digits only; `compareTo` compares
  characters rather than UTF-16 code units, which differ for characters
  outside the Basic Multilingual Plane.
- `LocalDateTime`: years outside 0..9999 (whose ISO form carries a sign or
  more digits) and fractional seconds are not modelled.
- `%n` in `saveReservations` is written as `\n`; `readLine` also accepts
  `\r` and `\r\n`, which the model's `ReadLines` does.
- `Math.ceil` on a `double` in the page count is integer ceiling division;
  the two agree for every list size an `int` can hold.
- Paging.PageSlice: requires the result list to have at most 2^31 - 1
  records, the most `List.size()` reports exactly.
- Paging.ListedPagesAgree: stated for lists of at most 2^31 - 5 records;
  for longer lists the servlet's end index of the last page overflows.
- StoreProperties.AddAssignsFreshId: holds only while the counter is below
  the `int` limit; `AddAtMaxIntReusesId` shows what happens at it.
- ReservationStore.Import: its own contract only counts outcomes; what it
  does is stated by `ImportByLine` (each line is `ImportLine` on the store
  the earlier lines left), `ImportConcat`, `ImportKeepsInvariants`,
  `ImportAppends` and `ImportOutcomesFollowParse`.
- Servlet.ListPage: shows the intended slice of the requested page. Where
  `(page - 1) * 5` leaves the `int` range, `doGet` shows another slice
  (see Findings); `ListPageAsServlet` states that the two agree everywhere
  else.

## Findings

| source | as written | input that shows it | evidently intended | confidence | as-written member | corrected member |
|---|---|---|---|---|---|---|
| src/main/java/com/example/reservation/ReservationServlet.java:43-45 | `start = (page - 1) * recordsPerPage` is computed on `int`s and wraps | `page=858993461` with at least 9 results: `(page - 1) * 5` is 2^32 + 4, wraps to 4, and records 5 to 9 are shown | a page past the last record is refused, as `subList` does for every page that does not overflow | not executed | Paging.PageSliceOverflow | Paging.PageSliceIntended |

The list view (`Servlet.ListPage`) uses `PageSliceIntended`.
`PageSliceAgreesWithoutOverflow` and `ListedPagesAgree` show that the two
slices coincide wherever the arithmetic does not overflow, so every
ordinary page is shown alike.

=== FILE: datetimes.dfy ===
/** `java.time.LocalDateTime` as the reservation code uses it: validity of
    the calendar fields, `isBefore`/`compareTo`, the ISO-8601 rendering of
    `DateTimeFormatter.ISO_LOCAL_DATE_TIME`, `toString`, and `parse`. Years
    are limited to 0..9999 and times to whole seconds. */
module DateTimes {
  import opened Results
  import opened Ints

  datatype DateTime = DateTime(year: int, month: int, day: int, hour: int, minute: int, second: int)

  /** The proleptic Gregorian leap-year rule of `IsoChronology`. */
  predicate IsLeapYear(y: int) {
    y % 4 == 0 && (y % 100 != 0 || y % 400 == 0)
  }

  function DaysInMonth(y: int, m: int): int {
    if m == 2 then (if IsLeapYear(y) then 29 else 28)
    else if m == 4 || m == 6 || m == 9 || m == 11 then 30
    else 31
  }

  /** The field ranges the STRICT resolver of `ISO_LOCAL_DATE_TIME` accepts. */
  predicate Valid(t: DateTime) {
    && 0 <= t.year <= 9999
    && 1 <= t.month <= 12
    && 1 <= t.day <= DaysInMonth(t.year, t.month)
    && 0 <= t.hour < 24
    && 0 <= t.minute < 60
    && 0 <= t.second < 60
  }

  /** A `LocalDateTime` value: only valid field combinations exist. */
  type LocalDateTime = t: DateTime | Valid(t) witness DateTime(2000, 1, 1, 0, 0, 0)

  /** `a.isBefore(b)`: earlier date, or same date and earlier time. */
  predicate IsBefore(a: DateTime, b: DateTime) {
    if a.year != b.year then a.year < b.year
    else if a.month != b.month then a.month < b.month
    else if a.day != b.day then a.day < b.day
    else if a.hour != b.hour then a.hour < b.hour
    else if a.minute != b.minute then a.minute < b.minute
    else a.second < b.second
  }

  /** `a.compareTo(b) <= 0`, the order `Comparator.comparing` sorts by. */
  predicate NotAfter(a: DateTime, b: DateTime) {
    !IsBefore(b, a)
  }

  lemma IsBeforeIsStrictTotalOrder(a: DateTime, b: DateTime, c: DateTime)
    ensures !IsBefore(a, a)
    ensures IsBefore(a, b) ==> !IsBefore(b, a)
    ensures IsBefore(a, b) && IsBefore(b, c) ==> IsBefore(a, c)
    ensures a == b || IsBefore(a, b) || IsBefore(b, a)
  {
  }

  function Pow10(n: nat): (p: nat)
    ensures p >= 1
  {
    if n == 0 then 1 else 10 * Pow10(n - 1)
  }

  /** `v` written with exactly `width` digits, zero-padded on the left. */
  function Pad(v: nat, width: nat): (s: string)
    requires v < Pow10(width)
    ensures |s| == width && AllDigits(s)
    ensures DigitsValue(s) == v
    decreases width
  {
    if width == 0 then ""
    else
      var s := Pad(v / 10, width - 1) + [DigitChar(v % 10)];
      assert s[..|s| - 1] == Pad(v / 10, width - 1);
      s
  }

  /** Every digit string of length `width` is the padded rendering of its value. */
  lemma {:induction false} PadOfDigits(s: string)
    requires AllDigits(s)
    ensures DigitsValue(s) < Pow10(|s|)
    ensures Pad(DigitsValue(s), |s|) == s
    decreases |s|
  {
    if s != [] {
      var init, c := s[..|s| - 1], s[|s| - 1];
      assert AllDigits(init);
      PadOfDigits(init);
      var a, d := DigitsValue(init), DigitValue(c);
      assert DigitsValue(s) == a * 10 + d;
      assert (a * 10 + d) / 10 == a && (a * 10 + d) % 10 == d;
      assert DigitChar(d) == c;
      assert s == init + [c];
    }
  }

  /** `yyyy-MM-dd'T'HH:mm`, the part both renderings share. */
  function Minutes(t: LocalDateTime): (s: string)
    ensures |s| == 16
  {
    Pad(t.year, 4) + "-" + Pad(t.month, 2) + "-" + Pad(t.day, 2) + "T" + Pad(t.hour, 2) + ":" + Pad(t.minute, 2)
  }

  /** `t.format(DateTimeFormatter.ISO_LOCAL_DATE_TIME)`: seconds are always written. */
  function FormatIso(t: LocalDateTime): (s: string)
    ensures |s| == 19
  {
    Minutes(t) + ":" + Pad(t.second, 2)
  }

  /** `t.toString()`: seconds are written only when they are not zero. */
  function ToString(t: LocalDateTime): (s: string)
    ensures t.second == 0 ==> |s| == 16
    ensures t.second != 0 ==> s == FormatIso(t)
  {
    if t.second == 0 then Minutes(t) else FormatIso(t)
  }

  /** The characters either rendering can contain. */
  predicate IsTimeChar(c: char) {
    IsDigit(c) || c == '-' || c == 'T' || c == ':'
  }

  lemma PadUsesDigits(v: nat, width: nat)
    requires v < Pow10(width)
    ensures forall i :: 0 <= i < width ==> IsTimeChar(Pad(v, width)[i])
  {
  }

  lemma MinutesUseTimeChars(t: LocalDateTime)
    ensures forall i :: 0 <= i < 16 ==> IsTimeChar(Minutes(t)[i])
  {
    var m := Minutes(t);
    MinutesLayout(t);
    PadUsesDigits(t.year, 4);
    PadUsesDigits(t.month, 2);
    PadUsesDigits(t.day, 2);
    PadUsesDigits(t.hour, 2);
    PadUsesDigits(t.minute, 2);
    forall i | 0 <= i < 16 ensures IsTimeChar(m[i]) {
      if i < 4 {
        assert m[i] == m[0..4][i];
      } else if 5 <= i < 7 {
        assert m[i] == m[5..7][i - 5];
      } else if 8 <= i < 10 {
        assert m[i] == m[8..10][i - 8];
      } else if 11 <= i < 13 {
        assert m[i] == m[11..13][i - 11];
      } else if 14 <= i {
        assert m[i] == m[14..16][i - 14];
      }
    }
  }

  lemma RenderingsUseTimeChars(t: LocalDateTime)
    ensures forall i :: 0 <= i < |FormatIso(t)| ==> IsTimeChar(FormatIso(t)[i])
    ensures forall i :: 0 <= i < |ToString(t)| ==> IsTimeChar(ToString(t)[i])
  {
    MinutesUseTimeChars(t);
    PadUsesDigits(t.second, 2);
    var f, m, p := FormatIso(t), Minutes(t), Pad(t.second, 2);
    assert f == m + ":" + p;
    forall i | 0 <= i < 19 ensures IsTimeChar(f[i]) {
      if i < 16 {
        assert f[i] == m[i];
      } else if i > 16 {
        assert f[i] == p[i - 17];
      }
    }
  }

  predicate DigitsAt(s: string, lo: nat, hi: nat) {
    lo <= hi <= |s| && AllDigits(s[lo..hi])
  }

  /** The text layout `ISO_LOCAL_DATE_TIME` parses: `yyyy-MM-ddTHH:mm` with
      optional `:ss`, the `T` in either case. */
  predicate HasIsoShape(s: string) {
    && (|s| == 16 || |s| == 19)
    && DigitsAt(s, 0, 4) && s[4] == '-'
    && DigitsAt(s, 5, 7) && s[7] == '-'
    && DigitsAt(s, 8, 10) && (s[10] == 'T' || s[10] == 't')
    && DigitsAt(s, 11, 13) && s[13] == ':'
    && DigitsAt(s, 14, 16)
    && (|s| == 19 ==> s[16] == ':' && DigitsAt(s, 17, 19))
  }

  /** The fields a well-shaped text names, valid or not. */
  function FieldsOf(s: string): DateTime
    requires HasIsoShape(s)
  {
    DateTime(
      DigitsValue(s[0..4]), DigitsValue(s[5..7]), DigitsValue(s[8..10]),
      DigitsValue(s[11..13]), DigitsValue(s[14..16]),
      if |s| == 19 then DigitsValue(s[17..19]) else 0)
  }

  /** `LocalDateTime.parse(s, ISO_LOCAL_DATE_TIME)`; a `DateTimeParseException`
      is `None`. A text is accepted only if it is, up to the case of the `T`,
      one of the two renderings of the value returned; every well-shaped
      text naming a valid date and time is accepted. */
  function ParseTime(s: string): (r: Option<LocalDateTime>)
    ensures HasIsoShape(s) && Valid(FieldsOf(s)) ==> r.Some?
  {
    if HasIsoShape(s) && Valid(FieldsOf(s)) then Some(FieldsOf(s)) else None
  }

  /** Whatever `ParseTime` accepts is a rendering of the time it returns:
      with seconds, the `FormatIso` text, and without, its first sixteen
      characters with the seconds read as zero, up to the case of the `T`. */
  lemma ParseTimeReadsRendering(s: string)
    ensures var r := ParseTime(s);
      r.Some? ==> && (|s| == 16 || |s| == 19) && (s[10] == 'T' || s[10] == 't')
                  && s[..10] + "T" + s[11..] == (if |s| == 19 then FormatIso(r.value) else Minutes(r.value))
                  && (|s| == 16 ==> r.value.second == 0)
  {
    if ParseTime(s).Some? {
      ShapedTextIsRendering(s);
    }
  }

  lemma MinutesLayout(t: LocalDateTime)
    ensures Minutes(t)[0..4] == Pad(t.year, 4) && Minutes(t)[4] == '-'
    ensures Minutes(t)[5..7] == Pad(t.month, 2) && Minutes(t)[7] == '-'
    ensures Minutes(t)[8..10] == Pad(t.day, 2) && Minutes(t)[10] == 'T'
    ensures Minutes(t)[11..13] == Pad(t.hour, 2) && Minutes(t)[13] == ':'
    ensures Minutes(t)[14..16] == Pad(t.minute, 2)
  {
    FiveFieldLayout(Minutes(t), Pad(t.year, 4), Pad(t.month, 2), Pad(t.day, 2), Pad(t.hour, 2), Pad(t.minute, 2), '-', '-', 'T', ':');
  }

  /** Where the five fields and four separators of the minutes layout sit. */
  lemma FiveFieldLayout(m: string, a: string, b: string, c: string, d: string, e: string, x: char, y: char, z: char, w: char)
    requires |a| == 4 && |b| == 2 && |c| == 2 && |d| == 2 && |e| == 2
    requires m == a + [x] + b + [y] + c + [z] + d + [w] + e
    ensures m[0..4] == a && m[4] == x && m[5..7] == b && m[7] == y
    ensures m[8..10] == c && m[10] == z && m[11..13] == d && m[13] == w && m[14..16] == e
  {
  }

  /** What `format` writes, `parse` reads back. */
  lemma FormatIsoParseRoundTrip(t: LocalDateTime)
    ensures ParseTime(FormatIso(t)) == Some(t)
  {
    var s := FormatIso(t);
    MinutesLayout(t);
    assert s[..16] == Minutes(t);
    assert s[0..4] == Minutes(t)[0..4];
    assert s[5..7] == Minutes(t)[5..7];
    assert s[8..10] == Minutes(t)[8..10];
    assert s[11..13] == Minutes(t)[11..13];
    assert s[14..16] == Minutes(t)[14..16];
    assert s[17..19] == Pad(t.second, 2);
    assert HasIsoShape(s);
  }

  /** What `toString` writes, `parse` reads back too (seconds default to zero). */
  lemma ToStringParseRoundTrip(t: LocalDateTime)
    ensures ParseTime(ToString(t)) == Some(t)
  {
    if t.second == 0 {
      var s := ToString(t);
      MinutesLayout(t);
      assert s[0..4] == Pad(t.year, 4);
      assert HasIsoShape(s);
    } else {
      FormatIsoParseRoundTrip(t);
    }
  }

  /** Two texts that agree on the five number fields and the four
      separators of the minutes layout agree on their first sixteen
      characters. */
  lemma SameMinutesLayout(u: string, m: string)
    requires |u| >= 16 && |m| == 16
    requires u[0..4] == m[0..4] && u[5..7] == m[5..7] && u[8..10] == m[8..10]
    requires u[11..13] == m[11..13] && u[14..16] == m[14..16]
    requires u[4] == m[4] && u[7] == m[7] && u[10] == m[10] && u[13] == m[13]
    ensures u[..16] == m
  {
    forall i | 0 <= i < 16 ensures u[i] == m[i] {
      if i < 4 {
        assert u[i] == u[0..4][i] && m[i] == m[0..4][i];
      } else if 5 <= i < 7 {
        assert u[i] == u[5..7][i - 5] && m[i] == m[5..7][i - 5];
      } else if 8 <= i < 10 {
        assert u[i] == u[8..10][i - 8] && m[i] == m[8..10][i - 8];
      } else if 11 <= i < 13 {
        assert u[i] == u[11..13][i - 11] && m[i] == m[11..13][i - 11];
      } else if 14 <= i {
        assert u[i] == u[14..16][i - 14] && m[i] == m[14..16][i - 14];
      }
    }
  }

  /** A well-shaped text naming a valid date and time is, up to the case of
      the `T`, a rendering of the time it names. */
  lemma ShapedTextIsRendering(s: string)
    requires HasIsoShape(s) && Valid(FieldsOf(s))
    ensures var t: LocalDateTime := FieldsOf(s);
      s[..10] + "T" + s[11..] == (if |s| == 19 then FormatIso(t) else Minutes(t))
  {
    var t: LocalDateTime := FieldsOf(s);
    var u := s[..10] + "T" + s[11..];
    ShapedMinutes(s, u);
    if |s| == 19 {
      PadOfDigits(s[17..19]);
      Reassemble(s, u, Minutes(t), Pad(t.second, 2));
    } else {
      assert u == u[..16];
    }
  }

  /** Take a nineteen-character text with seconds `p` and upper-case its
      `T`. If the first sixteen characters of the result are `m`, the whole
      result is `m + ":" + p`. */
  lemma Reassemble(s: string, u: string, m: string, p: string)
    requires |s| == 19 && s[16] == ':' && s[17..19] == p
    requires u == s[..10] + "T" + s[11..] && u[..16] == m
    ensures u == m + ":" + p
  {
    assert u[16..] == s[16..];
  }

  /** The first sixteen characters of a well-shaped text, with an upper-case
      `T`, are the minutes rendering of the time it names. */
  lemma ShapedMinutes(s: string, u: string)
    requires HasIsoShape(s) && Valid(FieldsOf(s))
    requires u == s[..10] + "T" + s[11..]
    ensures u[..16] == Minutes(FieldsOf(s))
  {
    var t: LocalDateTime := FieldsOf(s);
    PadOfDigits(s[0..4]);
    PadOfDigits(s[5..7]);
    PadOfDigits(s[8..10]);
    PadOfDigits(s[11..13]);
    PadOfDigits(s[14..16]);
    MinutesLayout(t);
    assert u[0..4] == s[0..4] && u[5..7] == s[5..7] && u[8..10] == s[8..10];
    assert u[11..13] == s[11..13] && u[14..16] == s[14..16];
    SameMinutesLayout(u, Minutes(t));
  }
}

=== FILE: ints.dfy ===
/** Java's 32-bit `int`: its range, two's-complement wrap-around, the
    `%d` conversion of `String.format` and `Integer.parseInt`. */
module Ints {
  import opened Results

  const MinInt: int := -0x8000_0000
  const MaxInt: int := 0x7fff_ffff
  const Modulus: int := 0x1_0000_0000

  /** The values a Java `int` can hold. */
  type Int32 = x: int | MinInt <= x <= MaxInt

  /** The 32-bit result Java's `+`, `-` and `*` produce for an exact result `x`. */
  function Wrap(x: int): (r: Int32)
    ensures MinInt <= x <= MaxInt ==> r == x
    ensures (x - r) % Modulus == 0
  {
    (x - MinInt) % Modulus + MinInt
  }

  /** `AtomicInteger.incrementAndGet` / `x + 1` on an `int`. */
  function Succ(x: Int32): (r: Int32)
    ensures x < MaxInt ==> r == x + 1 && r > x
    ensures x == MaxInt ==> r == MinInt
  {
    Wrap(x + 1)
  }

  predicate IsDigit(c: char) {
    '0' <= c <= '9'
  }

  function DigitValue(c: char): nat
    requires IsDigit(c)
  {
    c as int - '0' as int
  }

  function DigitChar(d: nat): (c: char)
    requires d < 10
    ensures IsDigit(c) && DigitValue(c) == d
  {
    ('0' as int + d) as char
  }

  predicate AllDigits(s: string) {
    forall i :: 0 <= i < |s| ==> IsDigit(s[i])
  }

  /** The value of a string of decimal digits, most significant first. */
  function DigitsValue(s: string): nat
    requires AllDigits(s)
    decreases |s|
  {
    if s == [] then 0 else DigitsValue(s[..|s| - 1]) * 10 + DigitValue(s[|s| - 1])
  }

  /** Decimal rendering of a natural number without leading zeros. */
  function Decimal(n: nat): (s: string)
    ensures |s| >= 1 && AllDigits(s)
    ensures s[0] == '0' ==> n == 0
    decreases n
  {
    if n < 10 then [DigitChar(n)] else Decimal(n / 10) + [DigitChar(n % 10)]
  }

  lemma {:induction false} DecimalValue(n: nat)
    ensures DigitsValue(Decimal(n)) == n
    decreases n
  {
    if n >= 10 {
      DecimalValue(n / 10);
      var s := Decimal(n);
      assert s[..|s| - 1] == Decimal(n / 10);
    }
  }

  /** `String.format("%d", x)`: an optional minus sign followed by the digits. */
  function FormatInt(x: int): (s: string)
    ensures |s| >= 1
    ensures forall i :: 0 <= i < |s| ==> s[i] == '-' || IsDigit(s[i])
    ensures (s[0] == '-') == (x < 0)
  {
    if x < 0 then "-" + Decimal(-x) else Decimal(x)
  }

  /** The digits of a numeral: the text after an optional leading sign. */
  function Unsigned(s: string): string {
    if s != [] && (s[0] == '-' || s[0] == '+') then s[1..] else s
  }

  /** An optional `-` or `+` followed by at least one ASCII digit. */
  predicate IsNumeral(s: string) {
    Unsigned(s) != [] && AllDigits(Unsigned(s))
  }

  /** The exact value a numeral denotes. */
  function NumeralValue(s: string): int
    requires IsNumeral(s)
  {
    if s[0] == '-' then -(DigitsValue(Unsigned(s)) as int) else DigitsValue(Unsigned(s))
  }

  /** `Integer.parseInt(s)`: an optional sign, at least one ASCII digit, and
      a value inside the `int` range; anything else throws, modelled as `None`. */
  function ParseInt(s: string): (r: Option<Int32>)
    ensures r.Some? <==> IsNumeral(s) && MinInt <= NumeralValue(s) <= MaxInt
    ensures r.Some? ==> r.value == NumeralValue(s)
  {
    if s == [] then None
    else
      var signed := s[0] == '-' || s[0] == '+';
      var digits := if signed then s[1..] else s;
      if digits == [] || !AllDigits(digits) then None
      else
        var v: int := if s[0] == '-' then -(DigitsValue(digits) as int) else DigitsValue(digits);
        if MinInt <= v <= MaxInt then Some(v) else None
  }

  /** What `%d` writes, `Integer.parseInt` reads back. */
  lemma FormatParseRoundTrip(x: Int32)
    ensures ParseInt(FormatInt(x)) == Some(x)
  {
    var s := FormatInt(x);
    if x < 0 {
      var d := Decimal(-(x as int));
      DecimalValue(-(x as int));
      assert s == "-" + d && Unsigned(s) == d;
      assert NumeralValue(s) == x;
    } else {
      var d := Decimal(x);
      DecimalValue(x);
      assert s == d && IsDigit(s[0]) && Unsigned(s) == d;
      assert NumeralValue(s) == x;
    }
  }
}

=== FILE: linecodec.dfy ===
/** The comma-separated text form of a reservation that `saveReservations`
    writes and `loadReservations`/`importReservations` read, and the
    line splitting of `BufferedReader.readLine`. No field is escaped. */
module LineCodec {
  import opened Results
  import opened Ints
  import opened Text
  import opened DateTimes
  import opened Reservations

  /** Why a line is not turned into a record. `TooFewFields` is skipped
      silently; the other two are caught exceptions reported as warnings. */
  datatype LineError = TooFewFields | BadInteger | BadTime

  /** The five fields in file order: id, name, the time as `timeText`,
      party size, seats. */
  function Fields(r: Reservation, timeText: string): seq<string> {
    [FormatInt(r.id), r.name, timeText, FormatInt(r.people), r.seats]
  }

  /** `String.format("%d,%s,%s,%d,%s", ...)` as `saveReservations` writes it,
      without the line terminator. */
  function FormatLine(r: Reservation): string {
    Join(Fields(r, FormatIso(r.time)), ',')
  }

  /** The per-line parse shared by load and import: split on commas, demand
      at least five fields (more are ignored), then parse the id, the time and
      the party size in that order; the first failure decides the error. */
  function ParseLine(line: string): (r: Result<Reservation, LineError>)
    ensures r.Failure? && r.error == TooFewFields <==> |Split(line, ',')| < 5
    ensures r.Success? ==> ',' !in r.value.name && ',' !in r.value.seats
    ensures r.Success? ==> r.value.name == Split(line, ',')[1] && r.value.seats == Split(line, ',')[4]
  {
    var parts := Split(line, ',');
    if |parts| < 5 then Failure(TooFewFields)
    else
      match ParseInt(parts[0])
      case None => Failure(BadInteger)
      case Some(id) =>
        match ParseTime(parts[2])
        case None => Failure(BadTime)
        case Some(time) =>
          match ParseInt(parts[3])
          case None => Failure(BadInteger)
          case Some(people) => Success(Reservation(id, parts[1], time, people, parts[4]))
  }

  /** With five fields or more, the line is a record exactly when the id,
      the time and the party size all parse, and the record holds those values
      with the second and fifth field as name and seats; otherwise the id is
      checked first, then the time, then the party size. */
  lemma ParseLineFields(line: string)
    requires |Split(line, ',')| >= 5
    ensures var p := Split(line, ','); var r := ParseLine(line);
      && (r.Success? <==> ParseInt(p[0]).Some? && ParseTime(p[2]).Some? && ParseInt(p[3]).Some?)
      && (r.Success? ==> r.value == Reservation(ParseInt(p[0]).value, p[1], ParseTime(p[2]).value, ParseInt(p[3]).value, p[4]))
      && (r == Failure(BadTime) <==> ParseInt(p[0]).Some? && ParseTime(p[2]).None?)
      && (r == Failure(BadInteger) <==> ParseInt(p[0]).None? || (ParseTime(p[2]).Some? && ParseInt(p[3]).None?))
  {
  }

  /** A record whose text form reads back as itself: name and seats hold no
      comma, and seats is not empty (an empty last field is dropped by `split`). */
  predicate Safe(r: Reservation) {
    ',' !in r.name && ',' !in r.seats && r.seats != ""
  }

  lemma {:induction false} PiecesOfJoin(ps: seq<string>, sep: char)
    requires |ps| >= 1
    requires forall i :: 0 <= i < |ps| ==> sep !in ps[i]
    ensures Pieces(Join(ps, sep), sep) == ps
    decreases |ps|
  {
    if |ps| == 1 {
      PiecesOfField(ps[0], sep);
    } else {
      PiecesOfJoin(ps[1..], sep);
      PiecesAfterField(ps[0], sep, Join(ps[1..], sep));
      assert ps == [ps[0]] + ps[1..];
    }
  }

  lemma NoCommaInRenderings(x: int, t: LocalDateTime)
    ensures ',' !in FormatInt(x)
    ensures ',' !in FormatIso(t)
    ensures ',' !in ToString(t)
  {
    RenderingsUseTimeChars(t);
  }

  lemma SplitOfFields(r: Reservation, timeText: string, extra: seq<string>)
    requires ',' !in r.name && ',' !in r.seats && ',' !in timeText
    requires forall i :: 0 <= i < |extra| ==> ',' !in extra[i]
    ensures Pieces(Join(Fields(r, timeText) + extra, ','), ',') == Fields(r, timeText) + extra
    ensures ',' in Join(Fields(r, timeText) + extra, ',')
  {
    var fs := Fields(r, timeText) + extra;
    FieldsHaveNoComma(r, timeText, extra);
    PiecesOfJoin(fs, ',');
    JoinPrefix(fs, ',');
  }

  lemma FieldsHaveNoComma(r: Reservation, timeText: string, extra: seq<string>)
    requires ',' !in r.name && ',' !in r.seats && ',' !in timeText
    requires forall i :: 0 <= i < |extra| ==> ',' !in extra[i]
    ensures forall i :: 0 <= i < |Fields(r, timeText) + extra| ==> ',' !in (Fields(r, timeText) + extra)[i]
  {
    var fs := Fields(r, timeText) + extra;
    NoCommaInRenderings(r.id, r.time);
    NoCommaInRenderings(r.people, r.time);
    forall i | 0 <= i < |fs| ensures ',' !in fs[i] {
      if i >= 5 {
        assert fs[i] == extra[i - 5];
      }
    }
  }

  lemma JoinPrefix(ps: seq<string>, sep: char)
    requires |ps| >= 2
    ensures Join(ps, sep) == ps[0] + [sep] + Join(ps[1..], sep)
    ensures sep in Join(ps, sep)
  {
    assert Join(ps, sep)[|ps[0]|] == sep;
  }

  /** The five fields joined with commas parse back to the record whenever
      the time text parses back to its time. */
  lemma JoinedFieldsParse(r: Reservation, timeText: string)
    requires Safe(r) && ',' !in timeText && ParseTime(timeText) == Some(r.time)
    ensures ParseLine(Join(Fields(r, timeText), ',')) == Success(r)
  {
    SplitOfFields(r, timeText, []);
    assert Fields(r, timeText) + [] == Fields(r, timeText);
    FormatParseRoundTrip(r.id);
    FormatParseRoundTrip(r.people);
  }

  /** Save followed by parse gives the record back, for every safe record. */
  lemma LineRoundTrip(r: Reservation)
    requires Safe(r)
    ensures ParseLine(FormatLine(r)) == Success(r)
  {
    NoCommaInRenderings(r.id, r.time);
    FormatIsoParseRoundTrip(r.time);
    JoinedFieldsParse(r, FormatIso(r.time));
  }

  /** `ParseLine` reads nothing beyond the fifth field. */
  lemma ParseLineReadsFirstFive(a: string, b: string)
    requires |Split(a, ',')| >= 5 && |Split(b, ',')| >= 5
    requires Split(a, ',')[..5] == Split(b, ',')[..5]
    ensures ParseLine(a) == ParseLine(b)
  {
    var pa, pb := Split(a, ','), Split(b, ',');
    assert pa[0] == pa[..5][0] && pb[0] == pb[..5][0];
    assert pa[1] == pa[..5][1] && pb[1] == pb[..5][1];
    assert pa[2] == pa[..5][2] && pb[2] == pb[..5][2];
    assert pa[3] == pa[..5][3] && pb[3] == pb[..5][3];
    assert pa[4] == pa[..5][4] && pb[4] == pb[..5][4];
  }

  /** A saved line with more fields appended still splits into the five
      fields first. */
  lemma SplitOfExtended(r: Reservation, extra: string)
    requires Safe(r)
    ensures |Split(FormatLine(r) + "," + extra, ',')| >= 5
    ensures Split(FormatLine(r) + "," + extra, ',')[..5] == Fields(r, FormatIso(r.time))
  {
    var fs := Fields(r, FormatIso(r.time));
    var ps := Pieces(extra, ',');
    NoCommaInRenderings(r.id, r.time);
    JoinPieces(extra, ',');
    SplitOfFields(r, FormatIso(r.time), ps);
    JoinAppend(fs, ps, ',');
    var line := FormatLine(r) + "," + extra;
    assert line == Join(fs + ps, ',');
    assert Split(line, ',') == DropTrailingEmpty(Pieces(line, ','));
    KeepsFirstFive(fs + ps, fs, Split(line, ','));
  }

  /** Dropping empty pieces from the end keeps five leading pieces whose
      last is not empty. */
  lemma KeepsFirstFive(ps: seq<string>, fs: seq<string>, r: seq<string>)
    requires |fs| == 5 && |ps| >= 5 && ps[..5] == fs && fs[4] != ""
    requires |r| <= |ps| && r == ps[..|r|]
    requires forall i :: |r| <= i < |ps| ==> ps[i] == ""
    ensures |r| >= 5 && r[..5] == fs
  {
    assert ps[4] == ps[..5][4];
  }

  /** Fields after the fifth are ignored, whatever they contain. */
  lemma ExtraFieldsIgnored(r: Reservation, extra: string)
    requires Safe(r)
    ensures ParseLine(FormatLine(r) + "," + extra) == Success(r)
  {
    var fs := Fields(r, FormatIso(r.time));
    SplitOfExtended(r, extra);
    NoCommaInRenderings(r.id, r.time);
    SplitOfFields(r, FormatIso(r.time), []);
    assert fs + [] == fs;
    assert Split(FormatLine(r), ',') == fs;
    assert fs[..5] == fs;
    ParseLineReadsFirstFive(FormatLine(r) + "," + extra, FormatLine(r));
    LineRoundTrip(r);
  }

  lemma {:induction false} JoinAppend(a: seq<string>, b: seq<string>, sep: char)
    requires |a| >= 1 && |b| >= 1
    ensures Join(a + b, sep) == Join(a, sep) + [sep] + Join(b, sep)
    decreases |a|
  {
    if |a| == 1 {
      assert (a + b)[1..] == b;
    } else {
      JoinAppend(a[1..], b, sep);
      assert (a + b)[1..] == a[1..] + b;
    }
  }

  /** An empty seats field is lost on the way through the file: the line
      then has four fields and is skipped. */
  lemma EmptySeatsLineSkipped(r: Reservation)
    requires ',' !in r.name && r.seats == ""
    ensures ParseLine(FormatLine(r)) == Failure(TooFewFields)
  {
    var fs := Fields(r, FormatIso(r.time));
    NoCommaInRenderings(r.id, r.time);
    SplitOfFields(r, FormatIso(r.time), []);
    assert fs + [] == fs;
    var parts := Split(FormatLine(r), ',');
    assert |parts| <= 4;
  }

  predicate IsLineBreak(c: char) {
    c == '\n' || c == '\r'
  }

  /** The index of the first line terminator, or the length when there is none. */
  function LineEnd(s: string): (i: nat)
    ensures i <= |s|
    ensures forall j :: 0 <= j < i ==> !IsLineBreak(s[j])
    ensures i < |s| ==> IsLineBreak(s[i])
    decreases |s|
  {
    if s == [] || IsLineBreak(s[0]) then 0 else 1 + LineEnd(s[1..])
  }

  /** One `readLine`: the first line of a non-empty text, the terminator
      after it (empty when the text has none) and the text after that
      terminator. */
  datatype LineStep = LineStep(line: string, end: string, rest: string)

  predicate IsTerminator(e: string) {
    e == "\n" || e == "\r" || e == "\r\n"
  }

  /** A line ends at the first `\n` or `\r`; a `\r` directly followed by
      `\n` ends it together with that `\n`. */
  function NextLine(text: string): (st: LineStep)
    requires text != []
    ensures text == st.line + st.end + st.rest
    ensures NoLineBreak(st.line)
    ensures IsTerminator(st.end) || (st.end == "" && st.rest == [])
    ensures st.end == "\r" ==> st.rest == [] || st.rest[0] != '\n'
    ensures |st.rest| < |text|
  {
    var i := LineEnd(text);
    if i == |text| then LineStep(text, "", [])
    else
      var n := if text[i] == '\r' && i + 1 < |text| && text[i + 1] == '\n' then 2 else 1;
      CutAtTerminator(text, i, n, LineStep(text[..i], text[i..i + n], text[i + n..]));
      LineStep(text[..i], text[i..i + n], text[i + n..])
  }

  /** Cutting at the first line break, and after a following `\n` when the
      break is `\r`, gives a line, its terminator and the rest. */
  lemma CutAtTerminator(text: string, i: nat, n: nat, st: LineStep)
    requires i < |text| && IsLineBreak(text[i])
    requires forall j :: 0 <= j < i ==> !IsLineBreak(text[j])
    requires n == if text[i] == '\r' && i + 1 < |text| && text[i + 1] == '\n' then 2 else 1
    requires st == LineStep(text[..i], text[i..i + n], text[i + n..])
    ensures text == st.line + st.end + st.rest
    ensures NoLineBreak(st.line)
    ensures IsTerminator(st.end)
    ensures st.end == "\r" ==> st.rest == [] || st.rest[0] != '\n'
    ensures |st.rest| < |text|
  {
    assert text == text[..i] + text[i..i + n] + text[i + n..];
    if n == 2 {
      assert st.end == "\r\n";
    } else {
      assert st.end == [text[i]];
    }
  }

  /** Successive `BufferedReader.readLine` results: lines end at `\n`, `\r`
      or `\r\n`; a last line without terminator is still returned. */
  function ReadLines(text: string): (lines: seq<string>)
    decreases |text|
  {
    if text == [] then [] else [NextLine(text).line] + ReadLines(NextLine(text).rest)
  }

  /** The terminator `readLine` consumed after each line of `ReadLines`;
      empty after a last line that has none. */
  function Terminators(text: string): (ends: seq<string>)
    decreases |text|
  {
    if text == [] then [] else [NextLine(text).end] + Terminators(NextLine(text).rest)
  }

  /** Each line followed by its terminator, all in order. */
  function Glue(lines: seq<string>, ends: seq<string>): string
    requires |lines| == |ends|
    decreases |lines|
  {
    if lines == [] then "" else lines[0] + ends[0] + Glue(lines[1..], ends[1..])
  }

  /** `ls` and `es` take `text` apart into lines and terminators with
      nothing lost: each line followed by its terminator gives the text back.
      No line holds a line break; every terminator is `\n`, `\r` or
      `\r\n`, except that the last may be missing; no line is empty with a
      missing terminator; and a `\r` is taken alone only when no `\n`
      follows it. */
  predicate SplitsInto(text: string, ls: seq<string>, es: seq<string>) {
    && |es| == |ls|
    && Glue(ls, es) == text
    && (forall k :: 0 <= k < |ls| ==> NoLineBreak(ls[k]))
    && (forall k :: 0 <= k < |es| ==> IsTerminator(es[k]) || (k == |es| - 1 && es[k] == ""))
    && (forall k :: 0 <= k < |ls| ==> ls[k] + es[k] != "")
    && (text != [] ==> |ls| > 0 && (ls[0] + es[0])[0] == text[0])
    && (forall k :: 0 <= k < |ls| - 1 && es[k] == "\r" ==> (ls[k + 1] + es[k + 1])[0] != '\n')
  }

  /** `readLine` takes the text apart into lines and terminators and loses
      nothing. */
  lemma {:induction false} ReadLinesSplitsText(text: string)
    ensures SplitsInto(text, ReadLines(text), Terminators(text))
    decreases |text|
  {
    if text != [] {
      var st := NextLine(text);
      if st.rest == [] {
        SplitsIntoOne(text, st.line, st.end, ReadLines(text), Terminators(text));
      } else {
        ReadLinesSplitsText(st.rest);
        SplitsIntoCons(text, st.line, st.end, st.rest, ReadLines(st.rest), Terminators(st.rest),
                       ReadLines(text), Terminators(text));
      }
    }
  }

  /** A text that is one line and its terminator, or one line alone. */
  lemma SplitsIntoOne(text: string, line: string, e: string, ls: seq<string>, es: seq<string>)
    requires text != [] && text == line + e
    requires NoLineBreak(line) && (IsTerminator(e) || e == "")
    requires ls == [line] && es == [e]
    ensures SplitsInto(text, ls, es)
  {
    assert Glue(ls, es) == line + e + Glue([], []);
  }

  /** A line and its terminator in front of a split text. */
  lemma SplitsIntoCons(text: string, line: string, e: string, rest: string,
                       ls: seq<string>, es: seq<string>, ls': seq<string>, es': seq<string>)
    requires SplitsInto(rest, ls, es) && rest != []
    requires NoLineBreak(line) && IsTerminator(e)
    requires e == "\r" ==> rest[0] != '\n'
    requires text == line + e + rest && ls' == [line] + ls && es' == [e] + es
    ensures SplitsInto(text, ls', es')
  {
    assert ls'[1..] == ls && es'[1..] == es;
    forall k | 1 <= k < |ls'| ensures NoLineBreak(ls'[k]) {
      assert ls'[k] == ls[k - 1];
    }
    forall k | 1 <= k < |es'| ensures IsTerminator(es'[k]) || (k == |es'| - 1 && es'[k] == "") {
      assert es'[k] == es[k - 1];
    }
    forall k | 1 <= k < |ls'| ensures ls'[k] + es'[k] != "" {
      assert ls'[k] == ls[k - 1] && es'[k] == es[k - 1];
    }
    forall k | 0 <= k < |ls'| - 1 && es'[k] == "\r" ensures (ls'[k + 1] + es'[k + 1])[0] != '\n' {
      if k > 0 {
        assert ls'[k] == ls[k - 1] && es'[k] == es[k - 1];
      }
    }
  }

  /** Each line written followed by `%n`, a `\n` on the platforms modelled. */
  function WriteLines(lines: seq<string>): string
    decreases |lines|
  {
    if lines == [] then "" else lines[0] + "\n" + WriteLines(lines[1..])
  }

  predicate NoLineBreak(s: string) {
    forall j :: 0 <= j < |s| ==> !IsLineBreak(s[j])
  }

  /** Lines without terminators survive being written and read back. */
  lemma {:induction false} ReadWriteLines(lines: seq<string>)
    requires forall k :: 0 <= k < |lines| ==> NoLineBreak(lines[k])
    ensures ReadLines(WriteLines(lines)) == lines
    decreases |lines|
  {
    if lines != [] {
      ReadLinesStep(lines[0], WriteLines(lines[1..]));
      ReadWriteLines(lines[1..]);
    }
  }

  lemma ReadLinesStep(l: string, rest: string)
    requires NoLineBreak(l)
    ensures ReadLines(l + "\n" + rest) == [l] + ReadLines(rest)
  {
    var text := l + "\n" + rest;
    LineEndOf(l, "\n" + rest);
    assert text[|l|] == '\n';
    assert text[..|l|] == l;
    assert text[|l| + 1..] == rest;
    assert NextLine(text).line == l && NextLine(text).rest == rest;
  }

  lemma {:induction false} LineEndOf(l: string, rest: string)
    requires NoLineBreak(l)
    requires rest != [] && IsLineBreak(rest[0])
    ensures LineEnd(l + rest) == |l|
    decreases |l|
  {
    if l != [] {
      assert (l + rest)[1..] == l[1..] + rest;
      LineEndOf(l[1..], rest);
    }
  }

  lemma {:induction false} JoinHasNoLineBreak(ps: seq<string>, sep: char)
    requires !IsLineBreak(sep)
    requires forall k :: 0 <= k < |ps| ==> NoLineBreak(ps[k])
    ensures NoLineBreak(Join(ps, sep))
    decreases |ps|
  {
    if |ps| > 1 {
      JoinHasNoLineBreak(ps[1..], sep);
      var j := Join(ps, sep);
      assert j == ps[0] + [sep] + Join(ps[1..], sep);
      forall i | 0 <= i < |j| ensures !IsLineBreak(j[i]) {
        if i > |ps[0]| {
          assert j[i] == Join(ps[1..], sep)[i - |ps[0]| - 1];
        }
      }
    }
  }

  /** The joined fields of a record, with a time text made of date-time
      characters, hold a line terminator only if the name or seats do. */
  lemma FieldsHaveNoLineBreak(r: Reservation, timeText: string)
    requires NoLineBreak(r.name) && NoLineBreak(r.seats)
    requires forall j :: 0 <= j < |timeText| ==> IsTimeChar(timeText[j])
    ensures NoLineBreak(Join(Fields(r, timeText), ','))
  {
    assert NoLineBreak(timeText) by {
      forall j | 0 <= j < |timeText| ensures !IsLineBreak(timeText[j]) {
        assert IsTimeChar(timeText[j]);
      }
    }
    JoinHasNoLineBreak(Fields(r, timeText), ',');
  }

  /** A saved line holds a line terminator only if the name or seats do. */
  lemma FormatLineHasNoLineBreak(r: Reservation)
    requires NoLineBreak(r.name) && NoLineBreak(r.seats)
    ensures NoLineBreak(FormatLine(r))
  {
    RenderingsUseTimeChars(r.time);
    FieldsHaveNoLineBreak(r, FormatIso(r.time));
  }
}

=== FILE: paging.dfy ===
/** The paging of the list view in `doGet`: five records per page, the
    slice of the search results a page number selects, and the page count.
    `PageSlice` is the slice as the servlet computes it, in 32-bit
    arithmetic; `PageSliceIntended` is the slice it means, which the list
    view uses. */
module Paging {
  import opened Results
  import opened Ints

  const RecordsPerPage: int := 5

  function Min(a: int, b: int): int {
    if a <= b then a else b
  }

  /** `(int) Math.ceil(n * 1.0 / recordsPerPage)`: the fewest pages that
      hold `n` records. */
  function PageCount(n: nat): (c: nat)
    ensures c * RecordsPerPage >= n
    ensures c > 0 ==> (c - 1) * RecordsPerPage < n
    ensures c == 0 <==> n == 0
  {
    (n + RecordsPerPage - 1) / RecordsPerPage
  }

  /** The records of page `page`, counted from 1: five from index
      `(page - 1) * 5`, fewer on the last page. */
  function Page<T>(results: seq<T>, page: int): (r: seq<T>)
    requires 1 <= page && (page - 1) * RecordsPerPage <= |results|
    ensures |r| == Min(RecordsPerPage, |results| - (page - 1) * RecordsPerPage)
    ensures forall i :: 0 <= i < |r| ==> r[i] == results[(page - 1) * RecordsPerPage + i]
  {
    results[(page - 1) * RecordsPerPage .. Min(page * RecordsPerPage, |results|)]
  }

  /** `start = (page - 1) * recordsPerPage` as `doGet` computes it on `int`s. */
  function PageStart(page: Int32): Int32 {
    Wrap(Wrap(page - 1) * RecordsPerPage)
  }

  /** `allReservations.subList(start, end)` with
      `end = Math.min(start + recordsPerPage, size)`, all on `int`s; `None`
      where `subList` throws. */
  function PageSlice<T>(results: seq<T>, page: Int32): (r: Option<seq<T>>)
    requires |results| <= MaxInt
    ensures r.Some? <==> 0 <= PageStart(page) <= |results| && PageStart(page) + RecordsPerPage <= MaxInt
    ensures r.Some? ==> |r.value| == Min(RecordsPerPage, |results| - PageStart(page))
    ensures r.Some? ==> forall i :: 0 <= i < |r.value| ==> r.value[i] == results[PageStart(page) + i]
  {
    var start := PageStart(page);
    var end := Min(Wrap(start + RecordsPerPage), |results|);
    if start < 0 || start > end then None else Some(results[start..end])
  }

  /** The slice the list view means to show: defined exactly for the pages
      from 1 up to the one just past the last record. */
  function PageSliceIntended<T>(results: seq<T>, page: int): (r: Option<seq<T>>)
    ensures r.Some? <==> 1 <= page && (page - 1) * RecordsPerPage <= |results|
    ensures r.Some? ==> |r.value| == Min(RecordsPerPage, |results| - (page - 1) * RecordsPerPage)
    ensures r.Some? ==> forall i :: 0 <= i < |r.value| ==> r.value[i] == results[(page - 1) * RecordsPerPage + i]
  {
    if 1 <= page && (page - 1) * RecordsPerPage <= |results| then Some(Page(results, page)) else None
  }

  /** Whenever the page arithmetic stays inside the `int` range, the servlet's
      slice is the intended one. */
  lemma PageSliceAgreesWithoutOverflow<T>(results: seq<T>, page: Int32)
    requires |results| <= MaxInt
    requires MinInt <= (page - 1) * RecordsPerPage
    requires (page - 1) * RecordsPerPage + RecordsPerPage <= MaxInt
    ensures PageSlice(results, page) == PageSliceIntended(results, page)
  {
    assert PageStart(page) == (page - 1) * RecordsPerPage;
  }

  /** Every page from 1 to the page count is shown alike by the servlet's
      arithmetic and the intended slice, while the list leaves room for the
      last page's end index. */
  lemma ListedPagesAgree<T>(results: seq<T>, page: Int32)
    requires |results| <= MaxInt - (RecordsPerPage - 1)
    requires 1 <= page <= PageCount(|results|)
    ensures PageSlice(results, page) == PageSliceIntended(results, page)
    ensures PageSliceIntended(results, page).Some?
  {
    PageSliceAgreesWithoutOverflow(results, page);
  }

  /** The servlet shows records 5 to 9 as page 858993461: `(page - 1) * 5`
      is 2^32 + 4, which wraps to 4, while that page lies far past the last
      record. */
  lemma PageSliceOverflow<T>(results: seq<T>)
    requires 9 <= |results| <= MaxInt
    ensures PageSlice(results, 858993461) == Some(results[4..9])
    ensures PageSliceIntended(results, 858993461) == None
  {
    assert Wrap(858993460 * RecordsPerPage) == 4;
  }

  /** Each page from 1 to the page count holds between one and five records;
      past the count a page is empty or refused. */
  lemma PagesWithinCount<T>(results: seq<T>, page: int)
    ensures 1 <= page <= PageCount(|results|) ==>
      PageSliceIntended(results, page).Some? && 1 <= |PageSliceIntended(results, page).value| <= RecordsPerPage
    ensures page > PageCount(|results|) ==>
      PageSliceIntended(results, page).None? || PageSliceIntended(results, page).value == []
  {
    if 1 <= page <= PageCount(|results|) {
      assert (page - 1) * RecordsPerPage <= (PageCount(|results|) - 1) * RecordsPerPage;
    }
    if page > PageCount(|results|) && PageSliceIntended(results, page).Some? {
      assert (page - 1) * RecordsPerPage >= PageCount(|results|) * RecordsPerPage;
    }
  }

  /** The pages `page`, `page + 1`, ... up to the page count. */
  function PagesFrom<T>(results: seq<T>, page: nat): seq<seq<T>>
    requires page >= 1
    decreases PageCount(|results|) + 1 - page
  {
    if page > PageCount(|results|) then []
    else
      assert (page - 1) * RecordsPerPage <= (PageCount(|results|) - 1) * RecordsPerPage;
      [Page(results, page)] + PagesFrom(results, page + 1)
  }

  function Concat<T>(ss: seq<seq<T>>): seq<T>
    decreases |ss|
  {
    if ss == [] then [] else ss[0] + Concat(ss[1..])
  }

  lemma {:induction false} PagesFromCover<T>(results: seq<T>, page: nat)
    requires page >= 1 && (page - 1) * RecordsPerPage <= |results|
    ensures Concat(PagesFrom(results, page)) == results[(page - 1) * RecordsPerPage..]
    decreases PageCount(|results|) + 1 - page
  {
    var n := |results|;
    var lo := (page - 1) * RecordsPerPage;
    if page > PageCount(n) {
      assert lo >= PageCount(n) * RecordsPerPage;
    } else if page * RecordsPerPage <= n {
      PagesFromCover(results, page + 1);
      assert results[lo..] == results[lo..page * RecordsPerPage] + results[page * RecordsPerPage..];
    } else {
      assert page == PageCount(n);
      assert PagesFrom(results, page + 1) == [];
      assert Page(results, page) == results[lo..];
    }
  }

  /** Pages 1 up to the page count, put end to end, are the whole result
      list in order: every record is shown on exactly one page. */
  lemma PagesCoverResults<T>(results: seq<T>)
    ensures Concat(PagesFrom(results, 1)) == results
  {
    PagesFromCover(results, 1);
  }
}

=== FILE: reservations.dfy ===
/** `Reservation`: the immutable record the store holds, and the relations
    between records the store's checks are built from. */
module Reservations {
  import opened Ints
  import opened Text
  import opened DateTimes
  import opened Seqs

  /** One booking. Java's getters `getId`, `getName`, `getReservationTime`,
      `getNumberOfPeople` and `getSeats` are the destructors. */
  datatype Reservation = Reservation(id: Int32, name: string, time: LocalDateTime, people: Int32, seats: string)

  /** A record of the store matches the key (name, time, seats) that
      `isDuplicate` tests: name and seats ignoring case, time exactly. */
  predicate MatchesKey(r: Reservation, name: string, time: LocalDateTime, seats: string) {
    EqualsIgnoreCase(r.name, name) && r.time == time && EqualsIgnoreCase(r.seats, seats)
  }

  /** Two records share the duplicate-prevention key. */
  predicate SameKey(a: Reservation, b: Reservation) {
    MatchesKey(a, b.name, b.time, b.seats)
  }

  /** No two positions of the collection share the duplicate-prevention key. */
  predicate KeyUnique(rs: seq<Reservation>) {
    forall i, j :: 0 <= i < |rs| && 0 <= j < |rs| && i != j ==> !SameKey(rs[i], rs[j])
  }

  /** No two positions of the collection share an id. */
  predicate IdsUnique(rs: seq<Reservation>) {
    forall i, j :: 0 <= i < |rs| && 0 <= j < |rs| && i != j ==> rs[i].id != rs[j].id
  }

  /** Records that occur in `b` keep the uniqueness properties of `b` when
      collected, in order, into `a`. */
  lemma {:induction false} SubsequenceKeepsUniqueness(a: seq<Reservation>, b: seq<Reservation>)
    requires IsSubsequence(a, b)
    ensures KeyUnique(b) ==> KeyUnique(a)
    ensures IdsUnique(b) ==> IdsUnique(a)
    decreases |b|
  {
    if a != [] {
      assert KeyUnique(b) ==> KeyUnique(b[1..]);
      assert IdsUnique(b) ==> IdsUnique(b[1..]);
      if a[0] == b[0] && IsSubsequence(a[1..], b[1..]) {
        SubsequenceKeepsUniqueness(a[1..], b[1..]);
        forall k | 1 <= k < |a| ensures exists j :: 1 <= j < |b| && a[k] == b[j] {
          SubsequenceMembers(a[1..], b[1..]);
          assert a[k] in b[1..];
          var j :| 0 <= j < |b| - 1 && b[1..][j] == a[k];
          assert b[j + 1] == a[k];
        }
        if KeyUnique(b) {
          forall i, j | 0 <= i < |a| && 0 <= j < |a| && i != j ensures !SameKey(a[i], a[j]) {
            if i == 0 {
              var j' :| 1 <= j' < |b| && a[j] == b[j'];
            } else if j == 0 {
              var i' :| 1 <= i' < |b| && a[i] == b[i'];
            } else {
              assert a[i] == a[1..][i - 1] && a[j] == a[1..][j - 1];
            }
          }
        }
        if IdsUnique(b) {
          forall i, j | 0 <= i < |a| && 0 <= j < |a| && i != j ensures a[i].id != a[j].id {
            if i == 0 {
              var j' :| 1 <= j' < |b| && a[j] == b[j'];
            } else if j == 0 {
              var i' :| 1 <= i' < |b| && a[i] == b[i'];
            } else {
              assert a[i] == a[1..][i - 1] && a[j] == a[1..][j - 1];
            }
          }
        }
      } else {
        SubsequenceKeepsUniqueness(a, b[1..]);
      }
    }
  }
}

=== FILE: results.dfy ===
/** Failure-carrying values used where the Java code returns `null` or throws. */
module Results {

  /** `None` stands for Java's `null`, or for a parse that threw. */
  datatype Option<+T> = None | Some(value: T)

  /** A computation that either yields a value or fails with a reason. */
  datatype Result<+T, +E> = Success(value: T) | Failure(error: E)
}

=== FILE: searchsort.dfy ===
/** `searchAndSortReservations`: a case-insensitive filter on name or
    ISO-formatted time, then an optional stable sort by name or by time. */
module SearchSort {
  import opened Results
  import opened Text
  import opened DateTimes
  import opened Seqs
  import opened Reservations

  /** The filter predicate: a missing or blank term keeps everything;
      otherwise the lower-cased name must contain the lower-cased term, or
      the ISO time must contain the term as typed (untrimmed). */
  predicate Matches(r: Reservation, term: Option<string>) {
    || term.None?
    || IsBlank(term.value)
    || Contains(ToLower(r.name), ToLower(term.value))
    || Contains(FormatIso(r.time), term.value)
  }

  /** The filtering stage: the matching records, in store order. */
  function Filter(rs: seq<Reservation>, term: Option<string>): (r: seq<Reservation>)
    ensures IsSubsequence(r, rs)
    ensures term.None? || IsBlank(term.value) ==> r == rs
  {
    KeepIf(rs, x => Matches(x, term))
  }

  /** The filter keeps every matching record as often as the store holds
      it, and no other record. */
  lemma FilterCounts(rs: seq<Reservation>, term: Option<string>, x: Reservation)
    ensures multiset(Filter(rs, term))[x] == if Matches(x, term) then multiset(rs)[x] else 0
  {
    KeepIfCounts(rs, y => Matches(y, term), x);
  }

  datatype SortField = ByName | ByTime

  /** `"name"` and `"time"` select a comparator; anything else, `null`
      included, leaves the filtered order. */
  function SortFieldOf(sortBy: Option<string>): (f: Option<SortField>)
    ensures f == Some(ByName) <==> sortBy == Some("name")
    ensures f == Some(ByTime) <==> sortBy == Some("time")
  {
    if sortBy == Some("name") then Some(ByName)
    else if sortBy == Some("time") then Some(ByTime)
    else None
  }

  /** Only `"desc"` reverses the comparator. */
  predicate IsDescending(sortOrder: Option<string>) {
    sortOrder == Some("desc")
  }

  /** `compare(a, b) <= 0` for `Comparator.comparing(getName)` (case-sensitive
      `compareTo`) or `Comparator.comparing(getReservationTime)`. */
  predicate KeyLe(field: SortField, a: Reservation, b: Reservation) {
    match field
    case ByName => CompareTo(a.name, b.name) <= 0
    case ByTime => NotAfter(a.time, b.time)
  }

  /** `a` may precede `b` in the sorted list; `reversed()` swaps the arguments. */
  predicate InOrder(field: SortField, desc: bool, a: Reservation, b: Reservation) {
    if desc then KeyLe(field, b, a) else KeyLe(field, a, b)
  }

  /** The comparator returns 0: the two records tie. */
  predicate SameSortKey(field: SortField, a: Reservation, b: Reservation) {
    match field
    case ByName => a.name == b.name
    case ByTime => a.time == b.time
  }

  /** The comparator is a total preorder whose ties are exactly equal keys. */
  lemma InOrderIsTotalPreorder(field: SortField, desc: bool, a: Reservation, b: Reservation, c: Reservation)
    ensures InOrder(field, desc, a, b) || InOrder(field, desc, b, a)
    ensures InOrder(field, desc, a, b) && InOrder(field, desc, b, c) ==> InOrder(field, desc, a, c)
    ensures SameSortKey(field, a, b) <==> InOrder(field, desc, a, b) && InOrder(field, desc, b, a)
  {
    match field
    case ByName =>
      CompareToAntisymmetric(a.name, b.name);
      CompareToZero(a.name, b.name);
      CompareToZero(b.name, a.name);
      if InOrder(field, desc, a, b) && InOrder(field, desc, b, c) {
        if desc {
          CompareToTransitive(c.name, b.name, a.name);
        } else {
          CompareToTransitive(a.name, b.name, c.name);
        }
      }
    case ByTime =>
      IsBeforeIsStrictTotalOrder(a.time, b.time, c.time);
      IsBeforeIsStrictTotalOrder(c.time, b.time, a.time);
  }

  /** Places `x` before the first element it may precede, so `x` lands
      before every element that ties with it. */
  function Insert(field: SortField, desc: bool, x: Reservation, s: seq<Reservation>): (r: seq<Reservation>)
    ensures multiset(r) == multiset(s) + multiset{x}
    decreases |s|
  {
    if s == [] then [x]
    else if InOrder(field, desc, x, s[0]) then [x] + s
    else
      assert s == [s[0]] + s[1..];
      [s[0]] + Insert(field, desc, x, s[1..])
  }

  /** A stable sort: insertion from the back, each element placed before
      the ties that follow it in the input. */
  function Sort(field: SortField, desc: bool, s: seq<Reservation>): (r: seq<Reservation>)
    ensures multiset(r) == multiset(s)
    decreases |s|
  {
    if s == [] then []
    else
      assert s == [s[0]] + s[1..];
      Insert(field, desc, s[0], Sort(field, desc, s[1..]))
  }

  predicate Sorted(field: SortField, desc: bool, s: seq<Reservation>) {
    forall i, j :: 0 <= i < j < |s| ==> InOrder(field, desc, s[i], s[j])
  }

  /** The records of `s` that tie with `k`, in order. */
  function WithKey(field: SortField, s: seq<Reservation>, k: Reservation): seq<Reservation>
    decreases |s|
  {
    if s == [] then []
    else (if SameSortKey(field, s[0], k) then [s[0]] else []) + WithKey(field, s[1..], k)
  }

  lemma ConsKeepsSorted(field: SortField, desc: bool, x: Reservation, t: seq<Reservation>)
    requires Sorted(field, desc, t)
    requires forall j :: 0 <= j < |t| ==> InOrder(field, desc, x, t[j])
    ensures Sorted(field, desc, [x] + t)
  {
    var r := [x] + t;
    forall i, j | 0 <= i < j < |r| ensures InOrder(field, desc, r[i], r[j]) {
      if i > 0 {
        assert r[i] == t[i - 1] && r[j] == t[j - 1];
      }
    }
  }

  lemma InsertedBefore(field: SortField, desc: bool, x: Reservation, s: seq<Reservation>)
    requires Sorted(field, desc, s) && s != [] && InOrder(field, desc, x, s[0])
    ensures forall j :: 0 <= j < |s| ==> InOrder(field, desc, x, s[j])
  {
    forall j | 0 <= j < |s| ensures InOrder(field, desc, x, s[j]) {
      InOrderIsTotalPreorder(field, desc, x, s[0], s[j]);
      if j > 0 {
        assert InOrder(field, desc, s[0], s[j]);
      }
    }
  }

  lemma HeadPrecedesInsert(field: SortField, desc: bool, x: Reservation, s: seq<Reservation>)
    requires Sorted(field, desc, s) && s != [] && !InOrder(field, desc, x, s[0])
    ensures forall j :: 0 <= j < |Insert(field, desc, x, s[1..])| ==> InOrder(field, desc, s[0], Insert(field, desc, x, s[1..])[j])
  {
    var t := Insert(field, desc, x, s[1..]);
    InOrderIsTotalPreorder(field, desc, x, s[0], x);
    forall j | 0 <= j < |t| ensures InOrder(field, desc, s[0], t[j]) {
      assert t[j] in multiset(t);
      if t[j] != x {
        assert t[j] in multiset(s[1..]);
        var m :| 0 <= m < |s[1..]| && s[1..][m] == t[j];
        assert s[m + 1] == t[j];
      }
    }
  }

  lemma {:induction false} InsertKeepsSorted(field: SortField, desc: bool, x: Reservation, s: seq<Reservation>)
    requires Sorted(field, desc, s)
    ensures Sorted(field, desc, Insert(field, desc, x, s))
    decreases |s|
  {
    if s == [] {
    } else if InOrder(field, desc, x, s[0]) {
      InsertedBefore(field, desc, x, s);
      ConsKeepsSorted(field, desc, x, s);
    } else {
      assert Sorted(field, desc, s[1..]);
      InsertKeepsSorted(field, desc, x, s[1..]);
      HeadPrecedesInsert(field, desc, x, s);
      ConsKeepsSorted(field, desc, s[0], Insert(field, desc, x, s[1..]));
    }
  }

  /** The output of `Sort` is ordered by the comparator. */
  lemma {:induction false} SortSorts(field: SortField, desc: bool, s: seq<Reservation>)
    ensures Sorted(field, desc, Sort(field, desc, s))
    decreases |s|
  {
    if s != [] {
      SortSorts(field, desc, s[1..]);
      InsertKeepsSorted(field, desc, s[0], Sort(field, desc, s[1..]));
    }
  }

  lemma WithKeyCons(field: SortField, y: Reservation, t: seq<Reservation>, k: Reservation)
    ensures WithKey(field, [y] + t, k) == (if SameSortKey(field, y, k) then [y] else []) + WithKey(field, t, k)
  {
    assert ([y] + t)[1..] == t;
  }

  /** Two records that tie with the same key may stand in either order. */
  lemma TiesAreInOrder(field: SortField, desc: bool, x: Reservation, y: Reservation, k: Reservation)
    requires SameSortKey(field, x, k) && SameSortKey(field, y, k)
    ensures InOrder(field, desc, x, y)
  {
    InOrderIsTotalPreorder(field, desc, x, y, x);
  }

  lemma {:induction false} InsertWithKey(field: SortField, desc: bool, x: Reservation, s: seq<Reservation>, k: Reservation)
    ensures WithKey(field, Insert(field, desc, x, s), k) == (if SameSortKey(field, x, k) then [x] else []) + WithKey(field, s, k)
    decreases |s|
  {
    if s == [] {
      WithKeyCons(field, x, [], k);
    } else if InOrder(field, desc, x, s[0]) {
      WithKeyCons(field, x, s, k);
    } else {
      var t := Insert(field, desc, x, s[1..]);
      InsertWithKey(field, desc, x, s[1..], k);
      WithKeyCons(field, s[0], t, k);
      if SameSortKey(field, x, k) && SameSortKey(field, s[0], k) {
        TiesAreInOrder(field, desc, x, s[0], k);
        assert false;
      }
      var a := if SameSortKey(field, x, k) then [x] else [];
      var b := if SameSortKey(field, s[0], k) then [s[0]] else [];
      SwapEmpty(WithKey(field, [s[0]] + t, k), (if SameSortKey(field, x, k) then [x] else []) + WithKey(field, s, k),
        a, b, WithKey(field, s[1..], k));
    }
  }

  /** Two pieces of which one is empty may trade places. */
  lemma SwapEmpty<T>(lhs: seq<T>, rhs: seq<T>, a: seq<T>, b: seq<T>, w: seq<T>)
    requires a == [] || b == []
    requires lhs == b + (a + w) && rhs == a + (b + w)
    ensures lhs == rhs
  {
  }

  /** Stability: for every key, the records with that key appear in the
      output in the same order as in the input. */
  lemma {:induction false} SortIsStable(field: SortField, desc: bool, s: seq<Reservation>, k: Reservation)
    ensures WithKey(field, Sort(field, desc, s), k) == WithKey(field, s, k)
    decreases |s|
  {
    if s != [] {
      SortIsStable(field, desc, s[1..], k);
      InsertWithKey(field, desc, s[0], Sort(field, desc, s[1..]), k);
    }
  }

  lemma {:induction false} WithKeyNonEmpty(field: SortField, s: seq<Reservation>, k: Reservation)
    requires WithKey(field, s, k) != []
    ensures exists j :: 0 <= j < |s| && SameSortKey(field, s[j], k)
    decreases |s|
  {
    if !SameSortKey(field, s[0], k) {
      WithKeyNonEmpty(field, s[1..], k);
      var j :| 0 <= j < |s[1..]| && SameSortKey(field, s[1..][j], k);
      assert s[j + 1] == s[1..][j];
    }
  }

  lemma WithKeyOfHead(field: SortField, s: seq<Reservation>)
    requires s != []
    ensures WithKey(field, s, s[0]) != [] && WithKey(field, s, s[0])[0] == s[0]
  {
  }

  /** A sorted list is fixed by its per-key orders: any stable sort of the
      same input, such as the `List.sort` the DAO calls, returns exactly
      the list `Sort` returns. */
  lemma {:induction false} SortedStableIsUnique(field: SortField, desc: bool, a: seq<Reservation>, b: seq<Reservation>)
    requires Sorted(field, desc, a) && Sorted(field, desc, b)
    requires forall k :: WithKey(field, a, k) == WithKey(field, b, k)
    ensures a == b
    decreases |a|
  {
    if a != [] {
      WithKeyOfHead(field, a);
    }
    if b != [] {
      WithKeyOfHead(field, b);
    }
    if a != [] && b != [] {
      assert WithKey(field, a, a[0]) != [];
      WithKeyNonEmpty(field, b, a[0]);
      var j :| 0 <= j < |b| && SameSortKey(field, b[j], a[0]);
      assert WithKey(field, b, b[0]) != [];
      WithKeyNonEmpty(field, a, b[0]);
      var i :| 0 <= i < |a| && SameSortKey(field, a[i], b[0]);
      InOrderIsTotalPreorder(field, desc, b[0], b[j], a[0]);
      InOrderIsTotalPreorder(field, desc, a[0], a[i], b[0]);
      InOrderIsTotalPreorder(field, desc, b[j], a[0], b[0]);
      InOrderIsTotalPreorder(field, desc, a[i], b[0], a[0]);
      assert InOrder(field, desc, b[0], a[0]) && InOrder(field, desc, a[0], b[0]);
      InOrderIsTotalPreorder(field, desc, a[0], b[0], a[0]);
      assert SameSortKey(field, a[0], b[0]);
      assert SameSortKey(field, b[0], a[0]) by {
        InOrderIsTotalPreorder(field, desc, b[0], a[0], b[0]);
      }
      assert WithKey(field, a, a[0])[0] == a[0];
      assert WithKey(field, b, a[0])[0] == b[0];
      assert a[0] == b[0];
      forall k ensures WithKey(field, a[1..], k) == WithKey(field, b[1..], k) {
        assert WithKey(field, a, k) == WithKey(field, b, k);
        if SameSortKey(field, a[0], k) {
          assert WithKey(field, a[1..], k) == WithKey(field, a, k)[1..];
          assert WithKey(field, b[1..], k) == WithKey(field, b, k)[1..];
        } else {
          assert WithKey(field, a, k) == [] + WithKey(field, a[1..], k);
          assert WithKey(field, b, k) == [] + WithKey(field, b[1..], k);
          assert [] + WithKey(field, a[1..], k) == WithKey(field, a[1..], k);
          assert [] + WithKey(field, b[1..], k) == WithKey(field, b[1..], k);
        }
      }
      SortedStableIsUnique(field, desc, a[1..], b[1..]);
      assert a == [a[0]] + a[1..] && b == [b[0]] + b[1..];
    }
  }

  /** `searchAndSortReservations(searchTerm, sortBy, sortOrder)`: the
      filtered records, unsorted when no comparator is selected, otherwise
      ordered by the comparator with ties kept in store order. */
  function SearchAndSort(rs: seq<Reservation>, term: Option<string>, sortBy: Option<string>, sortOrder: Option<string>): (r: seq<Reservation>)
    ensures multiset(r) == multiset(Filter(rs, term))
    ensures SortFieldOf(sortBy).None? ==> r == Filter(rs, term)
    ensures SortFieldOf(sortBy).Some? ==>
      && Sorted(SortFieldOf(sortBy).value, IsDescending(sortOrder), r)
      && forall k :: WithKey(SortFieldOf(sortBy).value, r, k) == WithKey(SortFieldOf(sortBy).value, Filter(rs, term), k)
  {
    var filtered := Filter(rs, term);
    match SortFieldOf(sortBy)
    case None => filtered
    case Some(field) =>
      var desc := IsDescending(sortOrder);
      SortSorts(field, desc, filtered);
      assert forall k :: WithKey(field, Sort(field, desc, filtered), k) == WithKey(field, filtered, k) by {
        forall k ensures WithKey(field, Sort(field, desc, filtered), k) == WithKey(field, filtered, k) {
          SortIsStable(field, desc, filtered, k);
        }
      }
      Sort(field, desc, filtered)
  }
}

=== FILE: seqs.dfy ===
/** Order-preserving subsequences, the shape every filter of the store produces. */
module Seqs {
  import opened Results

  /** `a` can be obtained from `b` by deleting elements, keeping the order. */
  predicate IsSubsequence<T(==)>(a: seq<T>, b: seq<T>)
    decreases |b|
  {
    a == [] || (b != [] && ((a[0] == b[0] && IsSubsequence(a[1..], b[1..])) || IsSubsequence(a, b[1..])))
  }

  lemma {:induction false} SubsequenceMembers<T>(a: seq<T>, b: seq<T>)
    requires IsSubsequence(a, b)
    ensures forall x :: x in a ==> x in b
    decreases |b|
  {
    if a != [] {
      if a[0] == b[0] && IsSubsequence(a[1..], b[1..]) {
        SubsequenceMembers(a[1..], b[1..]);
        assert forall x :: x in a ==> x == a[0] || x in a[1..];
      } else {
        SubsequenceMembers(a, b[1..]);
      }
    }
  }

  lemma {:induction false} SubsequenceLength<T>(a: seq<T>, b: seq<T>)
    requires IsSubsequence(a, b)
    ensures |a| <= |b|
    decreases |b|
  {
    if a != [] {
      if a[0] == b[0] && IsSubsequence(a[1..], b[1..]) {
        SubsequenceLength(a[1..], b[1..]);
      } else {
        SubsequenceLength(a, b[1..]);
      }
    }
  }

  /** The elements of `s` that satisfy `p`, in order. */
  function KeepIf<T(==)>(s: seq<T>, p: T -> bool): (r: seq<T>)
    ensures IsSubsequence(r, s)
    ensures (forall i :: 0 <= i < |s| ==> p(s[i])) ==> r == s
    decreases |s|
  {
    if s == [] then []
    else
      var rest := KeepIf(s[1..], p);
      assert s == [s[0]] + s[1..];
      if p(s[0]) then [s[0]] + rest else rest
  }

  /** `KeepIf` keeps every satisfying element as often as `s` holds it, and
      no other element. */
  lemma {:induction false} KeepIfCounts<T>(s: seq<T>, p: T -> bool, x: T)
    ensures multiset(KeepIf(s, p))[x] == if p(x) then multiset(s)[x] else 0
    decreases |s|
  {
    if s != [] {
      KeepIfCounts(s[1..], p, x);
      assert s == [s[0]] + s[1..];
    }
  }

  /** `n` marks, all set. */
  function AllTrue(n: nat): (r: seq<bool>)
    ensures |r| == n && forall k :: 0 <= k < n ==> r[k]
  {
    seq(n, _ => true)
  }

  /** The values `f` gives the elements of `s` marked in `keep`, in order;
      a marked element `f` maps to `None` contributes nothing. */
  function Collect<T, U>(s: seq<T>, keep: seq<bool>, f: T -> Option<U>): (r: seq<U>)
    requires |keep| == |s|
    ensures |r| <= |s|
    decreases |s|
  {
    if s == [] then []
    else
      var rest := Collect(s[1..], keep[1..], f);
      if keep[0] && f(s[0]).Some? then [f(s[0]).value] + rest else rest
  }

  /** One step of `Collect` with every element marked. */
  lemma CollectAllStep<T, U>(s: seq<T>, f: T -> Option<U>)
    requires s != []
    ensures Collect(s, AllTrue(|s|), f) ==
      if f(s[0]).Some? then [f(s[0]).value] + Collect(s[1..], AllTrue(|s| - 1), f)
      else Collect(s[1..], AllTrue(|s| - 1), f)
  {
    assert AllTrue(|s|)[1..] == AllTrue(|s| - 1);
  }

  /** A function on sequences that is empty on `[]` and takes each step as
      `Collect` does with every element marked is `Collect` itself. */
  lemma {:induction false} CollectAllOfStep<T, U>(s: seq<T>, f: T -> Option<U>, g: seq<T> -> seq<U>)
    ensures g([]) == [] &&
      (forall t: seq<T> :: t != [] ==> g(t) == if f(t[0]).Some? then [f(t[0]).value] + g(t[1..]) else g(t[1..]))
      ==> g(s) == Collect(s, AllTrue(|s|), f)
    decreases |s|
  {
    if s != [] {
      CollectAllOfStep(s[1..], f, g);
      CollectAllStep(s, f);
    }
  }

  /** A value is collected exactly when some marked element gives it. */
  lemma {:induction false} CollectMembers<T, U>(s: seq<T>, keep: seq<bool>, f: T -> Option<U>, y: U)
    requires |keep| == |s|
    ensures y in Collect(s, keep, f) <==> exists k :: 0 <= k < |s| && keep[k] && f(s[k]) == Some(y)
    decreases |s|
  {
    if s != [] {
      CollectMembers(s[1..], keep[1..], f, y);
      if exists k :: 0 <= k < |s| && keep[k] && f(s[k]) == Some(y) {
        var k :| 0 <= k < |s| && keep[k] && f(s[k]) == Some(y);
        if k > 0 {
          assert s[1..][k - 1] == s[k] && keep[1..][k - 1] == keep[k];
        }
      }
      if exists k :: 0 <= k < |s| - 1 && keep[1..][k] && f(s[1..][k]) == Some(y) {
        var k :| 0 <= k < |s| - 1 && keep[1..][k] && f(s[1..][k]) == Some(y);
        assert s[k + 1] == s[1..][k] && keep[k + 1] == keep[1..][k];
      }
    }
  }
}

=== FILE: servlet.dfy ===
/** The request handling of `ReservationServlet` that decides outcomes:
    the list view, the ordered checks of the add and update forms, what a
    submitted form does to the store, and the rows of the CSV export. */
module Servlet {
  import opened Results
  import opened Ints
  import opened Text
  import opened DateTimes
  import opened Reservations
  import opened LineCodec
  import opened ReservationStore
  import opened SearchSort
  import opened Paging
  import opened StoreProperties

  /** What the list page receives: the records of the page, the page count
      and the page number. */
  datatype ListView = ListView(shown: seq<Reservation>, pageCount: nat, currentPage: Int32)

  /** The `list` action: search and sort, then the requested page (1 when
      the parameter is absent). `None` is a request that ends in an
      exception: a page number `Integer.parseInt` refuses, or a page
      outside the results. */
  function ListPage(s: Store, search: Option<string>, sortBy: Option<string>, sortOrder: Option<string>, pageParam: Option<string>): (r: Option<ListView>)
    ensures pageParam.Some? && ParseInt(pageParam.value).None? ==> r.None?
    ensures r.Some? ==> r.value.pageCount == PageCount(|SearchAndSort(s.records, search, sortBy, sortOrder)|)
    ensures r.Some? ==> PageSliceIntended(SearchAndSort(s.records, search, sortBy, sortOrder), r.value.currentPage) == Some(r.value.shown)
    ensures pageParam.None? ==> r.Some? && r.value.currentPage == 1
    ensures pageParam.Some? && ParseInt(pageParam.value).Some? ==>
      var p := ParseInt(pageParam.value).value;
      && (r.Some? <==> PageSliceIntended(SearchAndSort(s.records, search, sortBy, sortOrder), p).Some?)
      && (r.Some? ==> r.value.currentPage == p)
  {
    var page := if pageParam.None? then Some(1) else ParseInt(pageParam.value);
    match page
    case None => None
    case Some(p) =>
      var results := SearchAndSort(s.records, search, sortBy, sortOrder);
      match PageSliceIntended(results, p)
      case None => None
      case Some(shown) => Some(ListView(shown, PageCount(|results|), p))
  }

  /** Wherever the page arithmetic of `doGet` stays inside the `int` range,
      the list view fails exactly when `doGet`'s slice does and shows the
      same records. */
  lemma ListPageAsServlet(s: Store, search: Option<string>, sortBy: Option<string>, sortOrder: Option<string>,
                          pageParam: Option<string>, p: Int32)
    ensures var results := SearchAndSort(s.records, search, sortBy, sortOrder);
      var r := ListPage(s, search, sortBy, sortOrder, pageParam);
      ((pageParam.Some? && ParseInt(pageParam.value) == Some(p)) || (pageParam.None? && p == 1))
      && |results| <= MaxInt && MinInt <= (p - 1) * RecordsPerPage && (p - 1) * RecordsPerPage + RecordsPerPage <= MaxInt
      ==> && (r.Some? <==> PageSlice(results, p).Some?)
          && (r.Some? ==> r.value.shown == PageSlice(results, p).value && r.value.currentPage == p)
  {
    var results := SearchAndSort(s.records, search, sortBy, sortOrder);
    if |results| <= MaxInt && MinInt <= (p - 1) * RecordsPerPage && (p - 1) * RecordsPerPage + RecordsPerPage <= MaxInt {
      PageSliceAgreesWithoutOverflow(results, p);
    }
  }

  /** The request parameters of the add and update forms; `None` is an
      absent parameter (`getParameter` returns `null`). */
  datatype Form = Form(name: Option<string>, time: Option<string>, seats: Option<string>, people: Option<string>, id: Option<string>)

  /** The messages the form is shown again with, one per check, in the order
      the checks run. */
  datatype FormError = PartySizeRequired | NameRequired | TimeRequired | SeatsRequired | InvalidTime | PastTime

  /** A form that passed every check: the values handed to the store. */
  datatype Draft = Draft(name: string, time: LocalDateTime, people: Int32, seats: string)

  /** Where each check runs in `handleAddOrUpdate`. */
  function Position(e: FormError): nat {
    match e
    case PartySizeRequired => 0
    case NameRequired => 1
    case TimeRequired => 2
    case SeatsRequired => 3
    case InvalidTime => 4
    case PastTime => 5
  }

  /** The verdict of each check on a form, each judged on its own. */
  datatype Checks = Checks(partySize: bool, name: bool, timeGiven: bool, seats: bool, timeParses: bool, notPast: bool)

  function ChecksOf(f: Form, now: LocalDateTime): Checks {
    Checks(
      f.people.Some? && ParseInt(f.people.value).Some?,
      f.name.Some? && !IsBlank(f.name.value),
      f.time.Some? && f.time.value != "",
      f.seats.Some? && !IsBlank(f.seats.value),
      f.time.None? || ParseTime(f.time.value).Some?,
      f.time.None? || ParseTime(f.time.value).None? || !IsBefore(ParseTime(f.time.value).value, now))
  }

  /** Whether the check that reports `e` is passed. */
  predicate Holds(c: Checks, e: FormError) {
    match e
    case PartySizeRequired => c.partySize
    case NameRequired => c.name
    case TimeRequired => c.timeGiven
    case SeatsRequired => c.seats
    case InvalidTime => c.timeParses
    case PastTime => c.notPast
  }

  /** Whether `f` passes the check that reports `e`. */
  predicate Passes(f: Form, now: LocalDateTime, e: FormError) {
    Holds(ChecksOf(f, now), e)
  }

  /** The checks of `handleAddOrUpdate` before any store call: the party
      size must parse, the name must not be blank, the time text must not be
      empty (it is not trimmed), the seats must not be blank, the time must
      parse and must not lie before `now`. Name and seats are handed on
      untrimmed, and the party size is not range-checked. */
  function Validate(f: Form, now: LocalDateTime): (r: Result<Draft, FormError>)
    ensures r.Success? ==> f.name == Some(r.value.name) && f.seats == Some(r.value.seats)
    ensures r.Success? ==> f.people.Some? && ParseInt(f.people.value) == Some(r.value.people)
    ensures r.Success? ==> f.time.Some? && ParseTime(f.time.value) == Some(r.value.time)
    ensures r.Success? ==> !IsBefore(r.value.time, now) && !IsBlank(r.value.name) && !IsBlank(r.value.seats)
  {
    if f.people.None? || ParseInt(f.people.value).None? then Failure(PartySizeRequired)
    else if f.name.None? || IsBlank(f.name.value) then Failure(NameRequired)
    else if f.time.None? || f.time.value == "" then Failure(TimeRequired)
    else if f.seats.None? || IsBlank(f.seats.value) then Failure(SeatsRequired)
    else
      match ParseTime(f.time.value)
      case None => Failure(InvalidTime)
      case Some(t) =>
        if IsBefore(t, now) then Failure(PastTime)
        else Success(Draft(f.name.value, t, ParseInt(f.people.value).value, f.seats.value))
  }

  /** The error of the first failed check in running order, if any. */
  function FirstFailed(c: Checks): Option<FormError> {
    if !c.partySize then Some(PartySizeRequired)
    else if !c.name then Some(NameRequired)
    else if !c.timeGiven then Some(TimeRequired)
    else if !c.seats then Some(SeatsRequired)
    else if !c.timeParses then Some(InvalidTime)
    else if !c.notPast then Some(PastTime)
    else None
  }

  lemma FirstFailedIsFirst(c: Checks, e: FormError)
    ensures FirstFailed(c) == Some(e) <==> (!Holds(c, e) && forall e' :: Position(e') < Position(e) ==> Holds(c, e'))
    ensures FirstFailed(c) == None <==> forall e' :: Holds(c, e')
  {
    if !Holds(c, e) && forall e' :: Position(e') < Position(e) ==> Holds(c, e') {
      assert Position(e) >= 1 ==> Holds(c, PartySizeRequired);
      assert Position(e) >= 2 ==> Holds(c, NameRequired);
      assert Position(e) >= 3 ==> Holds(c, TimeRequired);
      assert Position(e) >= 4 ==> Holds(c, SeatsRequired);
      assert Position(e) >= 5 ==> Holds(c, InvalidTime);
    }
    if FirstFailed(c) != None {
      assert !Holds(c, FirstFailed(c).value);
    }
  }

  /** `Validate` fails with exactly the error of the first failed check. */
  lemma ValidateFollowsChecks(f: Form, now: LocalDateTime)
    ensures Validate(f, now).Failure? <==> FirstFailed(ChecksOf(f, now)).Some?
    ensures Validate(f, now).Failure? ==> FirstFailed(ChecksOf(f, now)) == Some(Validate(f, now).error)
  {
  }

  /** The message shown is the one of the first check, in running order,
      that the form fails. */
  lemma ValidateReportsFirstFailedCheck(f: Form, now: LocalDateTime, e: FormError)
    ensures Validate(f, now) == Failure(e) <==>
      (!Passes(f, now, e) && forall e' :: Position(e') < Position(e) ==> Passes(f, now, e'))
  {
    ValidateFollowsChecks(f, now);
    FirstFailedIsFirst(ChecksOf(f, now), e);
  }

  /** A form is accepted exactly when it passes every check. */
  lemma ValidateSucceedsIffAllPass(f: Form, now: LocalDateTime)
    ensures Validate(f, now).Success? <==> forall e :: Passes(f, now, e)
  {
    ValidateFollowsChecks(f, now);
    FirstFailedIsFirst(ChecksOf(f, now), PastTime);
    if forall e :: Passes(f, now, e) {
      forall e ensures Holds(ChecksOf(f, now), e) {
        assert Passes(f, now, e);
      }
    }
  }

  /** Any party size `Integer.parseInt` accepts passes, zero and negative
      ones included. */
  lemma PartySizeNotRangeChecked(f: Form, now: LocalDateTime)
    requires forall e :: e != PartySizeRequired ==> Passes(f, now, e)
    requires f.people.Some? && ParseInt(f.people.value).Some?
    ensures Validate(f, now).Success?
    ensures Validate(f, now).value.people == ParseInt(f.people.value).value
  {
    ValidateFollowsChecks(f, now);
    assert Passes(f, now, NameRequired) && Passes(f, now, TimeRequired) && Passes(f, now, SeatsRequired);
    assert Passes(f, now, InvalidTime) && Passes(f, now, PastTime);
  }

  /** Text made only of blanks is no date-time. */
  lemma BlankDoesNotParse(s: string)
    requires IsBlank(s)
    ensures ParseTime(s) == None
  {
    if s != [] {
      assert !IsTrimmable(s[0]) ==> Trim(s) != [];
      assert !IsDigit(s[0]);
      if |s| >= 4 {
        assert s[0..4][0] == s[0];
        assert !DigitsAt(s, 0, 4);
      }
    }
  }

  /** A time of blanks is not missing but unparsable, while a name or seats
      of blanks is missing: only name and seats are trimmed. */
  lemma BlankTimeIsInvalid(f: Form, now: LocalDateTime)
    requires Passes(f, now, PartySizeRequired) && Passes(f, now, NameRequired) && Passes(f, now, SeatsRequired)
    requires f.time.Some? && f.time.value != "" && IsBlank(f.time.value)
    ensures Validate(f, now) == Failure(InvalidTime)
  {
    BlankDoesNotParse(f.time.value);
    ValidateFollowsChecks(f, now);
  }

  /** What the servlet does after the checks: the message shown, or the
      redirect to the list after a store call reported success, or an
      exception when an update carries an id `Integer.parseInt` refuses. */
  datatype FormMessage = Invalid(error: FormError) | Duplicate
  datatype FormOutcome = Redirected | FormShown(message: FormMessage) | Crashed

  /** `handleAddOrUpdate` with the clock read as `now`: validation, then
      `addReservation` or `updateReservation`; a refusal by either is
      reported as the duplicate message. */
  function HandleAddOrUpdate(s: Store, f: Form, isAdd: bool, now: LocalDateTime): (r: (Store, FormOutcome))
    ensures Validate(f, now).Failure? ==> r == (s, FormShown(Invalid(Validate(f, now).error)))
    ensures r.1 != Redirected ==> r.0 == s
    ensures r.1 == Crashed <==> !isAdd && Validate(f, now).Success? && (f.id.None? || ParseInt(f.id.value).None?)
    ensures r.1 == Redirected && isAdd ==>
      var d := Validate(f, now).value;
      r.0.records == s.records + [Reservation(r.0.counter, d.name, d.time, d.people, d.seats)]
    ensures r.1 == Redirected && !isAdd ==>
      var d := Validate(f, now).value;
      exists i :: 0 <= i < |s.records| && r.0.records == s.records[i := Reservation(s.records[i].id, d.name, d.time, d.people, d.seats)]
    ensures r.1 == FormShown(Duplicate) ==> Validate(f, now).Success?
    ensures r.1.FormShown? && r.1.message.Invalid? ==> Validate(f, now).Failure?
    ensures Validate(f, now).Success? && isAdd ==>
      var d := Validate(f, now).value;
      (r.1 == FormShown(Duplicate) <==> !Add(s, d.name, d.time, d.people, d.seats).1)
    ensures Validate(f, now).Success? && !isAdd && f.id.Some? && ParseInt(f.id.value).Some? ==>
      var d := Validate(f, now).value;
      (r.1 == FormShown(Duplicate) <==> !Update(s, ParseInt(f.id.value).value, d.name, d.time, d.people, d.seats).1)
  {
    match Validate(f, now)
    case Failure(e) => (s, FormShown(Invalid(e)))
    case Success(d) =>
      if isAdd then
        var (s1, ok) := Add(s, d.name, d.time, d.people, d.seats);
        if ok then (s1, Redirected) else (s, FormShown(Duplicate))
      else if f.id.None? || ParseInt(f.id.value).None? then (s, Crashed)
      else
        var (s1, ok) := Update(s, ParseInt(f.id.value).value, d.name, d.time, d.people, d.seats);
        if ok then (s1, Redirected) else (s, FormShown(Duplicate))
  }

  /** Updating an id that no record carries shows the same message as a
      key conflict, and changes nothing. */
  lemma UpdateOfMissingIdLooksLikeDuplicate(s: Store, f: Form, now: LocalDateTime)
    ensures (Validate(f, now).Success? && f.id.Some? && ParseInt(f.id.value).Some?
             && GetById(s, ParseInt(f.id.value).value).None?) ==>
      HandleAddOrUpdate(s, f, false, now) == (s, FormShown(Duplicate))
  {
  }

  /** After the checks pass, an add leaves the store as `addReservation`
      does. */
  lemma HandleAddCallsAdd(s: Store, f: Form, now: LocalDateTime)
    ensures Validate(f, now).Success? ==>
      var d := Validate(f, now).value;
      HandleAddOrUpdate(s, f, true, now).0 == Add(s, d.name, d.time, d.people, d.seats).0
  {
  }

  /** After the checks pass, an update leaves the store as
      `updateReservation` does, or unchanged when its id does not parse. */
  lemma HandleUpdateCallsUpdate(s: Store, f: Form, now: LocalDateTime)
    ensures Validate(f, now).Success? ==>
      var d := Validate(f, now).value;
      var r := HandleAddOrUpdate(s, f, false, now).0;
      && (f.id.Some? && ParseInt(f.id.value).Some? ==>
            r == Update(s, ParseInt(f.id.value).value, d.name, d.time, d.people, d.seats).0)
      && (f.id.None? || ParseInt(f.id.value).None? ==> r == s)
  {
    if Validate(f, now).Success? && f.id.Some? && ParseInt(f.id.value).Some? {
      var d := Validate(f, now).value;
      var u := Update(s, ParseInt(f.id.value).value, d.name, d.time, d.people, d.seats);
      assert HandleAddOrUpdate(s, f, false, now) == if u.1 then (u.0, Redirected) else (s, FormShown(Duplicate));
    }
  }

  /** A submitted form never breaks key uniqueness; for updates this needs
      ids to be unique as well. */
  lemma HandleKeepsKeyUnique(s: Store, f: Form, isAdd: bool, now: LocalDateTime)
    requires KeyUnique(s.records) && (isAdd || IdsUnique(s.records))
    ensures KeyUnique(HandleAddOrUpdate(s, f, isAdd, now).0.records)
  {
    if Validate(f, now).Success? {
      var d := Validate(f, now).value;
      if isAdd {
        HandleAddCallsAdd(s, f, now);
        AddKeepsKeyUnique(s, d.name, d.time, d.people, d.seats);
      } else if f.id.Some? && ParseInt(f.id.value).Some? {
        HandleUpdateCallsUpdate(s, f, now);
        UpdateKeepsInvariants(s, ParseInt(f.id.value).value, d.name, d.time, d.people, d.seats);
      }
    }
  }

  /** The column titles of the export: id, name, reservation time, party
      size, seats. */
  const HeaderFields: seq<string> := ["ID", "名前", "予約日時", "人数", "席"]

  /** The header line of the export. */
  const ExportHeader: string := Join(HeaderFields, ',')

  /** One export row: the five fields joined by commas, the time as
      `LocalDateTime.toString` writes it, nothing escaped. */
  function ExportRow(r: Reservation): string {
    Join(Fields(r, ToString(r.time)), ',')
  }

  /** The rows of an export, one per record in store order; the row of a
      safe record parses back to it, and a row holds a line terminator only
      if its name or seats do. */
  function ExportRows(rs: seq<Reservation>): (rows: seq<string>)
    ensures |rows| == |rs|
    ensures forall i :: 0 <= i < |rs| ==> rows[i] == ExportRow(rs[i])
    ensures forall i :: 0 <= i < |rs| && Safe(rs[i]) ==> ParseLine(rows[i]) == Success(rs[i])
    ensures forall i :: 0 <= i < |rs| && NoLineBreak(rs[i].name) && NoLineBreak(rs[i].seats) ==>
      NoLineBreak(rows[i])
  {
    var rows := seq(|rs|, i requires 0 <= i < |rs| => ExportRow(rs[i]));
    forall i | 0 <= i < |rs| {
      ExportedRow(rs[i], rows[i]);
    }
    rows
  }

  /** What one export row promises about its record. */
  lemma ExportedRow(r: Reservation, row: string)
    ensures row == ExportRow(r) && Safe(r) ==> ParseLine(row) == Success(r)
    ensures row == ExportRow(r) && NoLineBreak(r.name) && NoLineBreak(r.seats) ==> NoLineBreak(row)
  {
    if row == ExportRow(r) && Safe(r) {
      ExportRowParses(r);
    }
    if row == ExportRow(r) && NoLineBreak(r.name) && NoLineBreak(r.seats) {
      ExportRowHasNoLineBreak(r);
    }
  }

  /** The body `exportCsv` writes: the header, then the rows, each line
      ended by a newline. */
  function ExportCsv(rs: seq<Reservation>): string {
    WriteLines([ExportHeader] + ExportRows(rs))
  }

  /** A row holds a line terminator only if the name or seats do. */
  lemma ExportRowHasNoLineBreak(r: Reservation)
    requires NoLineBreak(r.name) && NoLineBreak(r.seats)
    ensures NoLineBreak(ExportRow(r))
  {
    RenderingsUseTimeChars(r.time);
    FieldsHaveNoLineBreak(r, ToString(r.time));
  }

  /** Read line by line, an export is its header followed by its rows,
      provided no name or seats holds a line terminator. */
  lemma ExportReadsBack(rs: seq<Reservation>)
    requires forall i :: 0 <= i < |rs| ==> NoLineBreak(rs[i].name) && NoLineBreak(rs[i].seats)
    ensures ReadLines(ExportCsv(rs)) == [ExportHeader] + ExportRows(rs)
  {
    var lines := [ExportHeader] + ExportRows(rs);
    forall k | 0 <= k < |lines| ensures NoLineBreak(lines[k]) {
      if k > 0 {
        ExportRowHasNoLineBreak(rs[k - 1]);
      }
    }
    ReadWriteLines(lines);
  }

  /** A row of a safe record parses back to the record: the time as
      `toString` writes it is accepted by `LocalDateTime.parse`. */
  lemma ExportRowParses(r: Reservation)
    requires Safe(r)
    ensures ParseLine(ExportRow(r)) == Success(r)
  {
    NoCommaInRenderings(r.id, r.time);
    ToStringParseRoundTrip(r.time);
    JoinedFieldsParse(r, ToString(r.time));
  }

  /** The header splits into five fields, so a line parse reports its first
      field as a bad integer. */
  lemma ExportHeaderIsBadInteger()
    ensures ParseLine(ExportHeader) == Failure(BadInteger)
  {
    assert forall i :: 0 <= i < |HeaderFields| ==> ',' !in HeaderFields[i];
    PiecesOfJoin(HeaderFields, ',');
    JoinPrefix(HeaderFields, ',');
    assert Split(ExportHeader, ',') == HeaderFields;
    assert !IsDigit('I');
  }

  /** Importing an export line by line: the header line fails as a bad
      integer and every further line parses back to its record, for safe
      records. */
  lemma ExportImportsBack(rs: seq<Reservation>)
    requires forall i :: 0 <= i < |rs| ==> Safe(rs[i]) && NoLineBreak(rs[i].name) && NoLineBreak(rs[i].seats)
    ensures |ReadLines(ExportCsv(rs))| == |rs| + 1
    ensures ParseLine(ReadLines(ExportCsv(rs))[0]) == Failure(BadInteger)
    ensures forall i :: 0 <= i < |rs| ==> ParseLine(ReadLines(ExportCsv(rs))[i + 1]) == Success(rs[i])
  {
    ExportReadsBack(rs);
    ExportHeaderIsBadInteger();
    forall i | 0 <= i < |rs| ensures ParseLine(ReadLines(ExportCsv(rs))[i + 1]) == Success(rs[i]) {
      ExportRowParses(rs[i]);
    }
  }
}

=== FILE: store.dfy ===
/** `ReservationDAO`: an ordered collection of reservations plus the id
    counter, and the operations that read and change them. Every operation
    is a pure function from the old state to the new one; saving to the data
    file after a change is left to the caller (see `SaveLines`). */
module ReservationStore {
  import opened Results
  import opened Ints
  import opened Text
  import opened DateTimes
  import opened Seqs
  import opened Reservations
  import opened LineCodec

  /** The DAO's state: the `reservations` list in order and `idCounter`. */
  datatype Store = Store(records: seq<Reservation>, counter: Int32)

  /** The state before the data file is loaded: no records, counter 0. */
  const Initial: Store := Store([], 0)

  /** No stored id exceeds the counter. */
  predicate CounterCovers(s: Store) {
    forall i :: 0 <= i < |s.records| ==> s.records[i].id <= s.counter
  }

  /** The position of the first record with the given id. */
  function IndexOfId(rs: seq<Reservation>, id: int): (r: Option<nat>)
    ensures r.Some? ==> r.value < |rs| && rs[r.value].id == id
    ensures r.Some? ==> forall j :: 0 <= j < r.value ==> rs[j].id != id
    ensures r.None? ==> forall j :: 0 <= j < |rs| ==> rs[j].id != id
    decreases |rs|
  {
    if rs == [] then None
    else if rs[0].id == id then Some(0)
    else match IndexOfId(rs[1..], id)
      case None => None
      case Some(k) => Some(k + 1)
  }

  /** `getReservationById`: the first record carrying the id, or `null`. */
  function GetById(s: Store, id: int): (r: Option<Reservation>)
    ensures r.None? <==> forall j :: 0 <= j < |s.records| ==> s.records[j].id != id
    ensures r.Some? ==> r.value.id == id
    ensures r.Some? ==> exists i :: (0 <= i < |s.records| && s.records[i] == r.value
                                     && forall j :: 0 <= j < i ==> s.records[j].id != id)
  {
    match IndexOfId(s.records, id)
    case None => None
    case Some(i) => Some(s.records[i])
  }

  /** `isDuplicate(name, time, seats)`: some record matches the key. */
  function IsDuplicate(rs: seq<Reservation>, name: string, time: LocalDateTime, seats: string): (b: bool)
    ensures b <==> exists i :: 0 <= i < |rs| && MatchesKey(rs[i], name, time, seats)
    decreases |rs|
  {
    if rs == [] then false
    else if MatchesKey(rs[0], name, time, seats) then true
    else
      var b := IsDuplicate(rs[1..], name, time, seats);
      assert b ==> exists i :: 0 <= i < |rs| && MatchesKey(rs[i], name, time, seats) by {
        if b {
          var i :| 0 <= i < |rs| - 1 && MatchesKey(rs[1..][i], name, time, seats);
          assert rs[i + 1] == rs[1..][i];
        }
      }
      b
  }

  /** `isDuplicate(name, time, seats, excludeId)`: some record with a
      different id matches the key. */
  function IsDuplicateExcept(rs: seq<Reservation>, name: string, time: LocalDateTime, seats: string, excludeId: int): (b: bool)
    ensures b <==> exists i :: 0 <= i < |rs| && rs[i].id != excludeId && MatchesKey(rs[i], name, time, seats)
    decreases |rs|
  {
    if rs == [] then false
    else if rs[0].id != excludeId && MatchesKey(rs[0], name, time, seats) then true
    else
      var b := IsDuplicateExcept(rs[1..], name, time, seats, excludeId);
      assert b ==> exists i :: 0 <= i < |rs| && rs[i].id != excludeId && MatchesKey(rs[i], name, time, seats) by {
        if b {
          var i :| 0 <= i < |rs| - 1 && rs[1..][i].id != excludeId && MatchesKey(rs[1..][i], name, time, seats);
          assert rs[i + 1] == rs[1..][i];
        }
      }
      b
  }

  /** `addReservation`: refused when the key is taken; otherwise the counter
      is incremented (wrapping at the `int` limit) and a record with the new
      counter value as id is appended. */
  function Add(s: Store, name: string, time: LocalDateTime, people: Int32, seats: string): (r: (Store, bool))
    ensures r.1 <==> forall i :: 0 <= i < |s.records| ==> !MatchesKey(s.records[i], name, time, seats)
    ensures !r.1 ==> r.0 == s
    ensures r.1 ==> r.0.counter == Succ(s.counter)
    ensures r.1 ==> r.0.records == s.records + [Reservation(r.0.counter, name, time, people, seats)]
  {
    if IsDuplicate(s.records, name, time, seats) then (s, false)
    else
      var id := Succ(s.counter);
      (Store(s.records + [Reservation(id, name, time, people, seats)], id), true)
  }

  /** `updateReservation`: refused when a record with another id matches the
      new key, or when no record has the id; otherwise the first record with
      the id is replaced in place. */
  function Update(s: Store, id: Int32, name: string, time: LocalDateTime, people: Int32, seats: string): (r: (Store, bool))
    ensures r.1 <==>
      && (forall i :: 0 <= i < |s.records| && s.records[i].id != id ==> !MatchesKey(s.records[i], name, time, seats))
      && (exists i :: 0 <= i < |s.records| && s.records[i].id == id)
    ensures !r.1 ==> r.0 == s
    ensures r.1 ==> r.0.counter == s.counter && |r.0.records| == |s.records|
    ensures r.1 ==> exists i :: (0 <= i < |s.records| && s.records[i].id == id
                                 && (forall j :: 0 <= j < i ==> s.records[j].id != id)
                                 && r.0.records == s.records[i := Reservation(id, name, time, people, seats)])
  {
    if IsDuplicateExcept(s.records, name, time, seats, id) then (s, false)
    else
      match IndexOfId(s.records, id)
      case None => (s, false)
      case Some(i) => (Store(s.records[i := Reservation(id, name, time, people, seats)], s.counter), true)
  }

  /** The records whose id differs from `id`, in order. */
  function WithoutId(rs: seq<Reservation>, id: int): (r: seq<Reservation>)
    ensures IsSubsequence(r, rs)
    ensures forall x :: multiset(r)[x] == if x.id != id then multiset(rs)[x] else 0
    decreases |rs|
  {
    if rs == [] then []
    else
      var rest := WithoutId(rs[1..], id);
      assert rs == [rs[0]] + rs[1..];
      if rs[0].id != id then [rs[0]] + rest else rest
  }

  lemma {:induction false} WithoutIdKeepsAll(rs: seq<Reservation>, id: int)
    requires forall j :: 0 <= j < |rs| ==> rs[j].id != id
    ensures WithoutId(rs, id) == rs
    decreases |rs|
  {
    if rs != [] {
      WithoutIdKeepsAll(rs[1..], id);
      assert WithoutId(rs, id) == [rs[0]] + WithoutId(rs[1..], id);
      assert rs == [rs[0]] + rs[1..];
    }
  }

  lemma {:induction false} WithoutIdShrinks(rs: seq<Reservation>, id: int, j: nat)
    requires j < |rs| && rs[j].id == id
    ensures |WithoutId(rs, id)| < |rs|
    decreases |rs|
  {
    var rest := WithoutId(rs[1..], id);
    if rs[0].id != id {
      assert rs[1..][j - 1] == rs[j];
      WithoutIdShrinks(rs[1..], id, j - 1);
      assert WithoutId(rs, id) == [rs[0]] + rest;
    } else {
      SubsequenceLength(rest, rs[1..]);
      assert WithoutId(rs, id) == rest;
    }
  }

  lemma WithoutIdLength(rs: seq<Reservation>, id: int)
    ensures (forall j :: 0 <= j < |rs| ==> rs[j].id != id) ==> WithoutId(rs, id) == rs
    ensures (exists j :: 0 <= j < |rs| && rs[j].id == id) ==> |WithoutId(rs, id)| < |rs|
  {
    if forall j :: 0 <= j < |rs| ==> rs[j].id != id {
      WithoutIdKeepsAll(rs, id);
    } else {
      var j :| 0 <= j < |rs| && rs[j].id == id;
      WithoutIdShrinks(rs, id, j);
    }
  }

  /** `deleteReservation`: removes every record with the id and reports
      whether any was removed. */
  function Delete(s: Store, id: Int32): (r: (Store, bool))
    ensures r.0.counter == s.counter
    ensures IsSubsequence(r.0.records, s.records)
    ensures forall x :: x in r.0.records <==> x in s.records && x.id != id
    ensures forall x :: multiset(r.0.records)[x] == if x.id != id then multiset(s.records)[x] else 0
    ensures r.1 <==> exists j :: 0 <= j < |s.records| && s.records[j].id == id
    ensures !r.1 ==> r.0 == s
  {
    var rest := WithoutId(s.records, id);
    WithoutIdLength(s.records, id);
    (Store(rest, s.counter), |rest| < |s.records|)
  }

  /** The records whose time is not before `now`, in order. */
  function NotBefore(rs: seq<Reservation>, now: LocalDateTime): (r: seq<Reservation>)
    ensures IsSubsequence(r, rs)
    ensures forall x :: multiset(r)[x] == if !IsBefore(x.time, now) then multiset(rs)[x] else 0
    decreases |rs|
  {
    if rs == [] then []
    else
      var rest := NotBefore(rs[1..], now);
      assert rs == [rs[0]] + rs[1..];
      if !IsBefore(rs[0].time, now) then [rs[0]] + rest else rest
  }

  /** `cleanUpPastReservations` at the instant `now`: drops the records
      strictly before `now`; one at exactly `now` stays. */
  function Cleanup(s: Store, now: LocalDateTime): (r: Store)
    ensures r.counter == s.counter
    ensures IsSubsequence(r.records, s.records)
    ensures forall x :: x in r.records <==> x in s.records && !IsBefore(x.time, now)
    ensures forall x :: multiset(r.records)[x] == if !IsBefore(x.time, now) then multiset(s.records)[x] else 0
  {
    Store(NotBefore(s.records, now), s.counter)
  }

  /** What `importReservations` did with one line. */
  datatype ImportOutcome = Inserted | Conflict | Malformed(error: LineError)

  /** A line `importReservations` reports on the error stream. */
  predicate IsWarning(o: ImportOutcome) {
    o.Malformed? && o.error != TooFewFields
  }

  /** One line of `importReservations`: a parsed record is inserted only if
      its key is free and its id unused; the counter is raised to the id. */
  function ImportLine(s: Store, line: string): (r: (Store, ImportOutcome))
    ensures r.1.Malformed? <==> ParseLine(line).Failure?
    ensures r.1.Malformed? ==> r.1.error == ParseLine(line).error
    ensures r.1 == Inserted <==> (ParseLine(line).Success?
                                  && !IsDuplicate(s.records, ParseLine(line).value.name, ParseLine(line).value.time, ParseLine(line).value.seats)
                                  && GetById(s, ParseLine(line).value.id).None?)
    ensures r.1 != Inserted ==> r.0 == s
    ensures r.1 == Inserted ==> r.0.records == s.records + [ParseLine(line).value]
    ensures r.1 == Inserted ==> r.0.counter == if ParseLine(line).value.id > s.counter then ParseLine(line).value.id else s.counter
  {
    match ParseLine(line)
    case Failure(e) => (s, Malformed(e))
    case Success(x) =>
      if !IsDuplicate(s.records, x.name, x.time, x.seats) && GetById(s, x.id).None? then
        (Store(s.records + [x], if x.id > s.counter then x.id else s.counter), Inserted)
      else (s, Conflict)
  }

  /** `importReservations`: the lines in order, each checked against the
      store as earlier lines of the same import left it. */
  function Import(s: Store, lines: seq<string>): (r: (Store, seq<ImportOutcome>))
    ensures |r.1| == |lines|
    decreases |lines|
  {
    if lines == [] then (s, [])
    else
      var (s1, o) := ImportLine(s, lines[0]);
      var (s2, os) := Import(s1, lines[1..]);
      (s2, [o] + os)
  }

  function CountInserted(os: seq<ImportOutcome>): nat {
    if os == [] then 0 else (if os[0] == Inserted then 1 else 0) + CountInserted(os[1..])
  }

  function CountWarnings(os: seq<ImportOutcome>): nat {
    if os == [] then 0 else (if IsWarning(os[0]) then 1 else 0) + CountWarnings(os[1..])
  }

  /** The lines `saveReservations` writes, one per record in store order. */
  function SaveLines(rs: seq<Reservation>): (lines: seq<string>)
    ensures |lines| == |rs|
    ensures forall i :: 0 <= i < |rs| ==> lines[i] == FormatLine(rs[i])
    ensures forall i :: 0 <= i < |rs| && Safe(rs[i]) ==> ParseLine(lines[i]) == Success(rs[i])
    ensures forall i :: 0 <= i < |rs| && NoLineBreak(rs[i].name) && NoLineBreak(rs[i].seats) ==>
      NoLineBreak(lines[i])
  {
    var lines := seq(|rs|, i requires 0 <= i < |rs| => FormatLine(rs[i]));
    forall i | 0 <= i < |rs| {
      SavedLine(rs[i], lines[i]);
    }
    lines
  }

  /** What one saved line promises about its record. */
  lemma SavedLine(r: Reservation, l: string)
    requires l == FormatLine(r)
    ensures Safe(r) ==> ParseLine(l) == Success(r)
    ensures NoLineBreak(r.name) && NoLineBreak(r.seats) ==> NoLineBreak(l)
  {
    if Safe(r) {
      LineRoundTrip(r);
    }
    if NoLineBreak(r.name) && NoLineBreak(r.seats) {
      FormatLineHasNoLineBreak(r);
    }
  }

  /** The record a line stands for, when it parses. */
  function Parsed(line: string): (r: Option<Reservation>)
    ensures r.Some? <==> ParseLine(line).Success?
    ensures r.Some? ==> ParseLine(line) == Success(r.value)
  {
    match ParseLine(line)
    case Success(x) => Some(x)
    case Failure(_) => None
  }

  /** The records `loadReservations` keeps: every line that parses, in file
      order, with no id or key check. */
  function LoadRecords(lines: seq<string>): (rs: seq<Reservation>)
    ensures |rs| <= |lines|
    decreases |lines|
  {
    if lines == [] then []
    else
      match ParseLine(lines[0])
      case Success(x) => [x] + LoadRecords(lines[1..])
      case Failure(_) => LoadRecords(lines[1..])
  }

  /** `maxId` of `loadReservations`: the largest id, and 0 when none is larger. */
  function MaxId(rs: seq<Reservation>): (m: Int32)
    ensures m >= 0
    ensures forall i :: 0 <= i < |rs| ==> rs[i].id <= m
    ensures m == 0 || exists i :: 0 <= i < |rs| && rs[i].id == m
    decreases |rs|
  {
    if rs == [] then 0
    else
      var m := MaxId(rs[1..]);
      assert forall i :: 1 <= i < |rs| ==> rs[i] == rs[1..][i - 1];
      if rs[0].id > m then rs[0].id else m
  }

  /** `loadReservations` into the initial state: the parsed records, and
      the counter set to their largest id. */
  function Load(lines: seq<string>): (s: Store)
    ensures s.records == Collect(lines, AllTrue(|lines|), Parsed)
    ensures CounterCovers(s)
    ensures s.counter >= 0
    ensures s.counter == 0 || exists i :: 0 <= i < |s.records| && s.records[i].id == s.counter
  {
    var rs := LoadRecords(lines);
    LoadRecordsCollects(lines);
    Store(rs, MaxId(rs))
  }

  /** A record is loaded exactly when some line of the file parses to it. */
  lemma LoadedRecords(lines: seq<string>, x: Reservation)
    ensures x in Load(lines).records <==> exists k :: 0 <= k < |lines| && ParseLine(lines[k]) == Success(x)
  {
    CollectMembers(lines, AllTrue(|lines|), Parsed, x);
  }

  /** `LoadRecords` keeps every line's parsed record, in file order. */
  lemma LoadRecordsCollects(lines: seq<string>)
    ensures LoadRecords(lines) == Collect(lines, AllTrue(|lines|), Parsed)
  {
    forall t: seq<string> | t != []
      ensures LoadRecords(t) == if Parsed(t[0]).Some? then [Parsed(t[0]).value] + LoadRecords(t[1..]) else LoadRecords(t[1..])
    {
      LoadRecordsUnfold(t);
    }
    CollectAllOfStep(lines, Parsed, LoadRecords);
  }

  /** One step of `LoadRecords`, through `Parsed`. */
  lemma LoadRecordsUnfold(lines: seq<string>)
    requires lines != []
    ensures LoadRecords(lines) ==
      if Parsed(lines[0]).Some? then [Parsed(lines[0]).value] + LoadRecords(lines[1..])
      else LoadRecords(lines[1..])
  {
  }

  /** Marks the lines an import inserted. */
  function InsertedMask(os: seq<ImportOutcome>): (m: seq<bool>)
    ensures |m| == |os|
    ensures forall k :: 0 <= k < |os| ==> (m[k] <==> os[k] == Inserted)
  {
    seq(|os|, k requires 0 <= k < |os| => os[k] == Inserted)
  }
}

=== FILE: store_lemmas.dfy ===
/** Properties of the store operations: which invariants each preserves,
    the freshness of added ids, and the save/load round trip. */
module StoreProperties {
  import opened Results
  import opened Ints
  import opened Text
  import opened DateTimes
  import opened Seqs
  import opened Reservations
  import opened LineCodec
  import opened ReservationStore

  /** A record that matches no stored key can be appended without creating
      a duplicate pair (the case-insensitive comparison is symmetric). */
  lemma AppendKeepsKeyUnique(rs: seq<Reservation>, x: Reservation)
    requires KeyUnique(rs)
    requires forall i :: 0 <= i < |rs| ==> !MatchesKey(rs[i], x.name, x.time, x.seats)
    ensures KeyUnique(rs + [x])
  {
    var rs' := rs + [x];
    forall i, j | 0 <= i < |rs'| && 0 <= j < |rs'| && i != j ensures !SameKey(rs'[i], rs'[j]) {
      if j == |rs| {
        assert !MatchesKey(rs[i], x.name, x.time, x.seats);
      } else if i == |rs| {
        assert !MatchesKey(rs[j], x.name, x.time, x.seats);
      }
    }
  }

  /** `addReservation` never creates two records with the same key. */
  lemma AddKeepsKeyUnique(s: Store, name: string, time: LocalDateTime, people: Int32, seats: string)
    requires KeyUnique(s.records)
    ensures KeyUnique(Add(s, name, time, people, seats).0.records)
  {
    var r := Add(s, name, time, people, seats);
    if r.1 {
      AppendKeepsKeyUnique(s.records, Reservation(r.0.counter, name, time, people, seats));
    }
  }

  /** While the counter is below the `int` limit, the id `addReservation`
      assigns is larger than every stored id, so it is fresh, and the
      counter again covers every id. */
  lemma AddAssignsFreshId(s: Store, name: string, time: LocalDateTime, people: Int32, seats: string)
    requires CounterCovers(s) && s.counter < MaxInt
    ensures var r := Add(s, name, time, people, seats);
      && CounterCovers(r.0)
      && (r.1 ==> forall i :: 0 <= i < |s.records| ==> s.records[i].id < r.0.counter)
      && (IdsUnique(s.records) ==> IdsUnique(r.0.records))
  {
  }

  /** At the `int` limit the counter wraps: the next add gets the smallest
      `int` as id, even when a stored record already carries it. */
  lemma AddAtMaxIntReusesId(s: Store, name: string, time: LocalDateTime, people: Int32, seats: string, k: nat)
    requires s.counter == MaxInt
    requires k < |s.records| && s.records[k].id == MinInt
    requires !IsDuplicate(s.records, name, time, seats)
    ensures var r := Add(s, name, time, people, seats);
      r.1 && r.0.counter == MinInt && !IdsUnique(r.0.records)
  {
    var r := Add(s, name, time, people, seats);
    assert r.0.records[k].id == r.0.records[|s.records|].id;
  }

  /** Replacing one record by another with the same id keeps ids unique
      and the counter covering. */
  lemma ReplaceSameIdKeepsIds(s: Store, i: nat, x: Reservation)
    requires i < |s.records| && x.id == s.records[i].id
    ensures IdsUnique(s.records) ==> IdsUnique(s.records[i := x])
    ensures CounterCovers(s) ==> CounterCovers(Store(s.records[i := x], s.counter))
  {
  }

  /** Replacing one record by one whose key no other record matches keeps
      keys unique. */
  lemma ReplaceFreeKeyKeepsKeyUnique(rs: seq<Reservation>, i: nat, x: Reservation)
    requires i < |rs| && KeyUnique(rs)
    requires forall j :: 0 <= j < |rs| && j != i ==> !MatchesKey(rs[j], x.name, x.time, x.seats)
    ensures KeyUnique(rs[i := x])
  {
    var rs' := rs[i := x];
    forall a, b | 0 <= a < |rs'| && 0 <= b < |rs'| && a != b ensures !SameKey(rs'[a], rs'[b]) {
      if a == i {
        assert !MatchesKey(rs[b], x.name, x.time, x.seats);
      } else if b == i {
        assert !MatchesKey(rs[a], x.name, x.time, x.seats);
      }
    }
  }

  /** `updateReservation` keeps ids unique and the counter covering, and,
      when ids are unique, keeps keys unique. */
  lemma UpdateKeepsInvariants(s: Store, id: Int32, name: string, time: LocalDateTime, people: Int32, seats: string)
    ensures var r := Update(s, id, name, time, people, seats);
      && (IdsUnique(s.records) ==> IdsUnique(r.0.records))
      && (CounterCovers(s) ==> CounterCovers(r.0))
      && (IdsUnique(s.records) && KeyUnique(s.records) ==> KeyUnique(r.0.records))
  {
    var r := Update(s, id, name, time, people, seats);
    if r.1 {
      var x := Reservation(id, name, time, people, seats);
      var i :| 0 <= i < |s.records| && s.records[i].id == id
        && (forall j :: 0 <= j < i ==> s.records[j].id != id)
        && r.0.records == s.records[i := x];
      ReplaceSameIdKeepsIds(s, i, x);
      if IdsUnique(s.records) && KeyUnique(s.records) {
        forall j | 0 <= j < |s.records| && j != i ensures !MatchesKey(s.records[j], name, time, seats) {
          assert s.records[j].id != id;
        }
        ReplaceFreeKeyKeepsKeyUnique(s.records, i, x);
      }
    }
  }

  /** Without unique ids, an update may give two records the same key:
      the replaced record is checked only against records of other ids. */
  lemma UpdateWithSharedIdBreaksKeyUnique()
    ensures var t: LocalDateTime := DateTime(2030, 1, 1, 12, 0, 0);
      var s := Store([Reservation(1, "a", t, 2, "s1"), Reservation(1, "b", t, 2, "s2")], 1);
      KeyUnique(s.records) && !KeyUnique(Update(s, 1, "b", t, 2, "s2").0.records)
  {
    var t: LocalDateTime := DateTime(2030, 1, 1, 12, 0, 0);
    var a := Reservation(1, "a", t, 2, "s1");
    var b := Reservation(1, "b", t, 2, "s2");
    var s := Store([a, b], 1);
    assert ToLower("a") == "a" && ToLower("b") == "b";
    assert !SameKey(a, b) && !SameKey(b, a);
    assert KeyUnique(s.records);
    var r := Update(s, 1, "b", t, 2, "s2");
    assert !IsDuplicateExcept(s.records, "b", t, "s2", 1);
    assert r.0.records == [b, b];
    assert SameKey(r.0.records[0], r.0.records[1]);
  }

  /** Re-submitting a record's own key under its own id is not a conflict. */
  lemma UpdateOwnKeyAllowed(s: Store, id: Int32, people: Int32)
    requires KeyUnique(s.records)
    requires GetById(s, id).Some?
    ensures var x := GetById(s, id).value;
      Update(s, id, x.name, x.time, people, x.seats).1
  {
    var x := GetById(s, id).value;
    var i :| 0 <= i < |s.records| && s.records[i] == x && forall j :: 0 <= j < i ==> s.records[j].id != id;
    forall j | 0 <= j < |s.records| && s.records[j].id != id
      ensures !MatchesKey(s.records[j], x.name, x.time, x.seats)
    {
      assert j != i;
      assert !SameKey(s.records[j], s.records[i]);
    }
  }

  /** A state whose records are a subsequence of another's, under the same
      counter, inherits every invariant. */
  lemma SubsequenceKeepsInvariants(a: Store, b: Store)
    requires IsSubsequence(a.records, b.records) && a.counter == b.counter
    ensures KeyUnique(b.records) ==> KeyUnique(a.records)
    ensures IdsUnique(b.records) ==> IdsUnique(a.records)
    ensures CounterCovers(b) ==> CounterCovers(a)
  {
    SubsequenceKeepsUniqueness(a.records, b.records);
    SubsequenceMembers(a.records, b.records);
    if CounterCovers(b) {
      forall i | 0 <= i < |a.records| ensures a.records[i].id <= a.counter {
        assert a.records[i] in b.records;
      }
    }
  }

  /** `deleteReservation` only drops records, so every invariant survives. */
  lemma DeleteKeepsInvariants(s: Store, id: Int32)
    ensures var d := Delete(s, id).0;
      && (KeyUnique(s.records) ==> KeyUnique(d.records))
      && (IdsUnique(s.records) ==> IdsUnique(d.records))
      && (CounterCovers(s) ==> CounterCovers(d))
  {
    SubsequenceKeepsInvariants(Delete(s, id).0, s);
  }

  /** `cleanUpPastReservations` only drops records, so every invariant survives. */
  lemma CleanupKeepsInvariants(s: Store, now: LocalDateTime)
    ensures var c := Cleanup(s, now);
      && (KeyUnique(s.records) ==> KeyUnique(c.records))
      && (IdsUnique(s.records) ==> IdsUnique(c.records))
      && (CounterCovers(s) ==> CounterCovers(c))
  {
    SubsequenceKeepsInvariants(Cleanup(s, now), s);
  }

  /** One import line keeps every invariant of the store. */
  lemma ImportLineKeepsInvariants(s: Store, line: string)
    ensures var r := ImportLine(s, line).0;
      && (KeyUnique(s.records) ==> KeyUnique(r.records))
      && (IdsUnique(s.records) ==> IdsUnique(r.records))
      && (CounterCovers(s) ==> CounterCovers(r))
      && r.counter >= s.counter
  {
    var r := ImportLine(s, line);
    if r.1 == Inserted {
      var x := ParseLine(line).value;
      AppendFreshKeepsInvariants(s, x, r.0);
    }
  }

  /** Appending a record with a free id and a free key, and raising the
      counter to its id, keeps every invariant. */
  lemma AppendFreshKeepsInvariants(s: Store, x: Reservation, r: Store)
    requires forall i :: 0 <= i < |s.records| ==> !MatchesKey(s.records[i], x.name, x.time, x.seats)
    requires forall j :: 0 <= j < |s.records| ==> s.records[j].id != x.id
    requires r.records == s.records + [x]
    requires r.counter == if x.id > s.counter then x.id else s.counter
    ensures KeyUnique(s.records) ==> KeyUnique(r.records)
    ensures IdsUnique(s.records) ==> IdsUnique(r.records)
    ensures CounterCovers(s) ==> CounterCovers(r)
    ensures r.counter >= s.counter
  {
    if KeyUnique(s.records) {
      AppendKeepsKeyUnique(s.records, x);
    }
  }

  /** `importReservations` keeps key uniqueness, id uniqueness and the
      counter bound, and never lowers the counter. */
  lemma {:induction false} ImportKeepsInvariants(s: Store, lines: seq<string>)
    ensures var r := Import(s, lines).0;
      && (KeyUnique(s.records) ==> KeyUnique(r.records))
      && (IdsUnique(s.records) ==> IdsUnique(r.records))
      && (CounterCovers(s) ==> CounterCovers(r))
      && r.counter >= s.counter
    decreases |lines|
  {
    if lines != [] {
      var (s1, o) := ImportLine(s, lines[0]);
      ImportLineKeepsInvariants(s, lines[0]);
      ImportKeepsInvariants(s1, lines[1..]);
    }
  }

  /** `importReservations` only appends: the old records stay in front,
      followed by the parsed records of the inserted lines, in file order. */
  lemma ImportAppends(s: Store, lines: seq<string>)
    ensures var r := Import(s, lines);
      && |r.0.records| == |s.records| + CountInserted(r.1)
      && r.0.records[..|s.records|] == s.records
      && r.0.records[|s.records|..] == Collect(lines, InsertedMask(r.1), Parsed)
  {
    ImportKeepsPrefix(s, lines);
    ImportAddsInserted(s, lines);
  }

  lemma {:induction false} ImportKeepsPrefix(s: Store, lines: seq<string>)
    ensures var r := Import(s, lines);
      && |r.0.records| == |s.records| + CountInserted(r.1)
      && r.0.records[..|s.records|] == s.records
    decreases |lines|
  {
    if lines != [] {
      var (s1, o) := ImportLine(s, lines[0]);
      ImportKeepsPrefix(s1, lines[1..]);
      var r := Import(s1, lines[1..]);
      assert r.0.records[..|s.records|] == r.0.records[..|s1.records|][..|s.records|];
    }
  }

  lemma {:induction false} ImportAddsInserted(s: Store, lines: seq<string>)
    ensures var r := Import(s, lines);
      |s.records| <= |r.0.records| && r.0.records[|s.records|..] == Collect(lines, InsertedMask(r.1), Parsed)
    decreases |lines|
  {
    if lines != [] {
      var (s1, o) := ImportLine(s, lines[0]);
      ImportKeepsPrefix(s1, lines[1..]);
      ImportAddsInserted(s1, lines[1..]);
      var r := Import(s1, lines[1..]);
      var os := Import(s, lines).1;
      assert os == [o] + r.1;
      assert InsertedMask(os)[1..] == InsertedMask(r.1);
      var added := if o == Inserted then [ParseLine(lines[0]).value] else [];
      AppendedStep(s.records, s1.records, r.0.records, added,
        Collect(lines[1..], InsertedMask(r.1), Parsed), Collect(lines, InsertedMask(os), Parsed));
    }
  }

  /** One step of an append-only import, over plain sequences. */
  lemma AppendedStep<T>(olds: seq<T>, mid: seq<T>, fin: seq<T>, added: seq<T>, tail: seq<T>, whole: seq<T>)
    requires mid == olds + added
    requires |mid| <= |fin| && fin[..|mid|] == mid
    requires fin[|mid|..] == tail
    requires whole == added + tail
    ensures |olds| <= |fin| && fin[|olds|..] == whole
  {
    assert fin[|olds|..] == fin[|olds|..|mid|] + fin[|mid|..];
  }

  /** A malformed line never aborts an import: the outcome of every line is
      decided by its own parse, and exactly the lines whose id, time or party
      size does not parse are reported as warnings. */
  lemma {:induction false} ImportOutcomesFollowParse(s: Store, lines: seq<string>)
    ensures var os := Import(s, lines).1;
      forall k :: 0 <= k < |lines| ==>
        && (os[k].Malformed? <==> ParseLine(lines[k]).Failure?)
        && (IsWarning(os[k]) <==> ParseLine(lines[k]).Failure? && ParseLine(lines[k]).error != TooFewFields)
    decreases |lines|
  {
    if lines != [] {
      var (s1, o) := ImportLine(s, lines[0]);
      ImportOutcomesFollowParse(s1, lines[1..]);
      var os := Import(s, lines).1;
      assert os == [o] + Import(s1, lines[1..]).1;
      forall k | 1 <= k < |lines| ensures os[k] == Import(s1, lines[1..]).1[k - 1] && lines[k] == lines[1..][k - 1] {
      }
    }
  }

  /** One step of `Import`: the first line, then the rest from the store it
      left. */
  lemma ImportUnfold(s: Store, lines: seq<string>)
    requires lines != []
    ensures var (s1, o) := ImportLine(s, lines[0]);
      Import(s, lines) == (Import(s1, lines[1..]).0, [o] + Import(s1, lines[1..]).1)
  {
  }

  /** The bookkeeping of `ImportConcat`'s inductive step, over the results
      alone. */
  lemma ConcatStep<S, O>(o: O, ra: (S, seq<O>), rab: (S, seq<O>), restA: (S, seq<O>),
                          restAB: (S, seq<O>), tailB: (S, seq<O>))
    requires ra == (restA.0, [o] + restA.1)
    requires rab == (restAB.0, [o] + restAB.1)
    requires restAB.0 == tailB.0 && restAB.1 == restA.1 + tailB.1
    ensures rab.0 == tailB.0 && rab.1 == ra.1 + tailB.1
  {
  }

  /** Importing `a + b` imports `a`, then `b` into the store `a` left; the
      outcomes are those of `a` followed by those of `b`. */
  lemma {:induction false} ImportConcat(s: Store, a: seq<string>, b: seq<string>)
    ensures Import(s, a + b).0 == Import(Import(s, a).0, b).0
    ensures Import(s, a + b).1 == Import(s, a).1 + Import(Import(s, a).0, b).1
    decreases |a|
  {
    if a == [] {
      assert a + b == b;
    } else {
      var ab := a + b;
      assert ab[0] == a[0] && ab[1..] == a[1..] + b;
      var s1 := ImportLine(s, a[0]).0;
      ImportConcat(s1, a[1..], b);
      ImportUnfold(s, a);
      ImportUnfold(s, ab);
      ConcatStep(ImportLine(s, a[0]).1, Import(s, a), Import(s, ab), Import(s1, a[1..]),
                 Import(s1, a[1..] + b), Import(Import(s, a).0, b));
    }
  }

  /** The loop of `importReservations` line by line: the outcome of line `k` is
      that of `ImportLine` on line `k`, applied to the store the lines before
      it left, and that call leaves the store the first `k + 1` lines leave. */
  lemma ImportByLine(s: Store, lines: seq<string>, k: int)
    requires 0 <= k < |lines|
    ensures Import(s, lines).1[k] == ImportLine(Import(s, lines[..k]).0, lines[k]).1
    ensures Import(s, lines[..k + 1]).0 == ImportLine(Import(s, lines[..k]).0, lines[k]).0
  {
    ImportOutcomeAt(s, lines, k);
    ImportStoreAfter(s, lines, k);
  }

  /** The outcome of line `k`, as the first line of the rest. */
  lemma ImportOutcomeAt(s: Store, lines: seq<string>, k: int)
    requires 0 <= k < |lines|
    ensures Import(s, lines).1[k] == ImportLine(Import(s, lines[..k]).0, lines[k]).1
  {
    var pre := lines[..k];
    var sk := Import(s, pre).0;
    assert pre + lines[k..] == lines;
    ImportConcat(s, pre, lines[k..]);
    assert lines[k..][0] == lines[k];
    ImportUnfold(sk, lines[k..]);
    IndexAfterPrefix(Import(s, lines).1, Import(s, pre).1, Import(sk, lines[k..]).1);
  }

  /** The store after line `k`, as the last line of the first `k + 1`. */
  lemma ImportStoreAfter(s: Store, lines: seq<string>, k: int)
    requires 0 <= k < |lines|
    ensures Import(s, lines[..k + 1]).0 == ImportLine(Import(s, lines[..k]).0, lines[k]).0
  {
    var pre := lines[..k];
    var sk := Import(s, pre).0;
    assert pre + [lines[k]] == lines[..k + 1];
    ImportConcat(s, pre, [lines[k]]);
    ImportSingle(sk, lines[k]);
  }

  /** Importing one line is `ImportLine`. */
  lemma ImportSingle(s: Store, line: string)
    ensures Import(s, [line]).0 == ImportLine(s, line).0
  {
    ImportUnfold(s, [line]);
    assert [line][1..] == [];
  }

  /** In `a + b`, the element right after `a` is the first of `b`. */
  lemma IndexAfterPrefix<T>(all: seq<T>, a: seq<T>, b: seq<T>)
    requires all == a + b && b != []
    ensures all[|a|] == b[0]
  {
  }

  /** One line of `loadReservations`: a parsed line adds its record in
      front of the rest, a failed one adds nothing. */
  lemma LoadRecordsStep(line: string, rest: seq<string>)
    ensures ParseLine(line).Success? ==>
      LoadRecords([line] + rest) == [ParseLine(line).value] + LoadRecords(rest)
    ensures ParseLine(line).Failure? ==> LoadRecords([line] + rest) == LoadRecords(rest)
  {
    assert ([line] + rest)[1..] == rest;
  }

  lemma {:induction false} LoadRecordsOfParsed(lines: seq<string>, rs: seq<Reservation>)
    requires |lines| == |rs|
    requires forall i :: 0 <= i < |rs| ==> ParseLine(lines[i]) == Success(rs[i])
    ensures LoadRecords(lines) == rs
    decreases |rs|
  {
    if rs != [] {
      LoadRecordsOfParsed(lines[1..], rs[1..]);
      LoadRecordsStep(lines[0], lines[1..]);
      assert lines == [lines[0]] + lines[1..];
      assert rs == [rs[0]] + rs[1..];
    }
  }

  lemma LoadRecordsOfSaved(rs: seq<Reservation>)
    requires forall i :: 0 <= i < |rs| ==> Safe(rs[i])
    ensures LoadRecords(SaveLines(rs)) == rs
  {
    var lines := SaveLines(rs);
    forall i | 0 <= i < |rs| ensures ParseLine(lines[i]) == Success(rs[i]) {
      LineRoundTrip(rs[i]);
    }
    LoadRecordsOfParsed(lines, rs);
  }

  /** Loading what was saved gives the same records in the same order, and
      a counter equal to the largest id (0 if none is positive). */
  lemma SaveLoadRoundTrip(rs: seq<Reservation>)
    requires forall i :: 0 <= i < |rs| ==> Safe(rs[i])
    ensures Load(SaveLines(rs)) == Store(rs, MaxId(rs))
  {
    LoadRecordsOfSaved(rs);
  }

  /** Reloading a saved store never raises the counter past its old value. */
  lemma ReloadKeepsCounterBound(s: Store)
    requires CounterCovers(s) && s.counter >= 0
    requires forall i :: 0 <= i < |s.records| ==> Safe(s.records[i])
    ensures Load(SaveLines(s.records)).records == s.records
    ensures Load(SaveLines(s.records)).counter <= s.counter
  {
    SaveLoadRoundTrip(s.records);
  }

  /** The same round trip through the file text, for records whose name and
      seats also hold no line terminator. */
  lemma FileRoundTrip(rs: seq<Reservation>)
    requires forall i :: 0 <= i < |rs| ==> Safe(rs[i]) && NoLineBreak(rs[i].name) && NoLineBreak(rs[i].seats)
    ensures Load(ReadLines(WriteLines(SaveLines(rs)))) == Store(rs, MaxId(rs))
  {
    var lines := SaveLines(rs);
    forall k | 0 <= k < |lines| ensures NoLineBreak(lines[k]) {
      FormatLineHasNoLineBreak(rs[k]);
    }
    ReadWriteLines(lines);
    SaveLoadRoundTrip(rs);
  }

  /** Loading checks neither ids nor keys: a file holding the same line twice
      loads both copies, so uniqueness is not an invariant of every state. */
  lemma LoadKeepsRepeatedLines(r: Reservation)
    requires Safe(r)
    ensures Load([FormatLine(r), FormatLine(r)]).records == [r, r]
    ensures !IdsUnique(Load([FormatLine(r), FormatLine(r)]).records)
    ensures !KeyUnique(Load([FormatLine(r), FormatLine(r)]).records)
  {
    var l := FormatLine(r);
    LineRoundTrip(r);
    LoadRecordsOfParsed([l, l], [r, r]);
    var rs := Load([FormatLine(r), FormatLine(r)]).records;
    assert SameKey(rs[0], rs[1]);
  }
}

=== FILE: text.dfy ===
/** The `java.lang.String` operations the reservation code relies on:
    case folding, `trim`, `contains`, `compareTo` and `split(",")`. */
module Text {

  /** `Character.toLowerCase`, restricted to the ASCII letters. */
  function LowerChar(c: char): char {
    if 'A' <= c <= 'Z' then (c as int + 32) as char else c
  }

  /** `String.toLowerCase`: folds every character, keeps the length. */
  function ToLower(s: string): (r: string)
    ensures |r| == |s|
    ensures forall i :: 0 <= i < |s| ==> r[i] == LowerChar(s[i])
    decreases |s|
  {
    if s == [] then [] else [LowerChar(s[0])] + ToLower(s[1..])
  }

  /** `String.equalsIgnoreCase`: same length and pairwise equal after folding. */
  predicate EqualsIgnoreCase(a: string, b: string) {
    ToLower(a) == ToLower(b)
  }

  /** A character `String.trim` strips: any code point up to the space. */
  predicate IsTrimmable(c: char) {
    c <= ' '
  }

  function TrimStart(s: string): (r: string)
    ensures |r| <= |s| && r == s[|s| - |r|..]
    ensures r != [] ==> !IsTrimmable(r[0])
    ensures forall i :: 0 <= i < |s| - |r| ==> IsTrimmable(s[i])
    decreases |s|
  {
    if s != [] && IsTrimmable(s[0]) then TrimStart(s[1..]) else s
  }

  function TrimEnd(s: string): (r: string)
    ensures |r| <= |s| && r == s[..|r|]
    ensures r != [] ==> !IsTrimmable(r[|r| - 1])
    ensures forall i :: |r| <= i < |s| ==> IsTrimmable(s[i])
    decreases |s|
  {
    if s != [] && IsTrimmable(s[|s| - 1]) then TrimEnd(s[..|s| - 1]) else s
  }

  /** `r` is `s[i..j]`, and everything of `s` outside that slice is
      trimmable. */
  predicate IsMiddle(r: string, s: string, i: int, j: int) {
    && 0 <= i <= j <= |s| && r == s[i..j]
    && (forall k :: 0 <= k < i ==> IsTrimmable(s[k]))
    && (forall k :: j <= k < |s| ==> IsTrimmable(s[k]))
  }

  /** `String.trim`: drops leading and trailing characters up to the space.
      Nothing is left exactly when every character is trimmable. */
  function Trim(s: string): (r: string)
    ensures r == [] <==> forall i :: 0 <= i < |s| ==> IsTrimmable(s[i])
  {
    var t := TrimStart(s);
    var r := TrimEnd(t);
    TrimmedIsMiddle(s, t, r);
    r
  }

  /** What `trim` returns is the part of `s` between a trimmable prefix and
      a trimmable suffix, and neither of its ends is trimmable. */
  lemma TrimKeepsMiddle(s: string)
    ensures exists i, j :: IsMiddle(Trim(s), s, i, j)
    ensures Trim(s) != [] ==> !IsTrimmable(Trim(s)[0]) && !IsTrimmable(Trim(s)[|Trim(s)| - 1])
  {
    var t := TrimStart(s);
    TrimmedFacts(s, t, TrimEnd(t), Trim(s));
  }

  /** The facts of `TrimKeepsMiddle`, over the two stages' contracts. */
  lemma TrimmedFacts(s: string, t: string, r: string, m: string)
    requires |t| <= |s| && t == s[|s| - |t|..]
    requires t != [] ==> !IsTrimmable(t[0])
    requires forall k :: 0 <= k < |s| - |t| ==> IsTrimmable(s[k])
    requires |r| <= |t| && r == t[..|r|]
    requires r != [] ==> !IsTrimmable(r[|r| - 1])
    requires forall k :: |r| <= k < |t| ==> IsTrimmable(t[k])
    requires m == r
    ensures exists i, j :: IsMiddle(m, s, i, j)
    ensures m != [] ==> !IsTrimmable(m[0]) && !IsTrimmable(m[|m| - 1])
  {
    TrimmedIsMiddle(s, t, r);
    if r != [] {
      assert r[0] == t[0];
    }
  }

  /** Dropping a trimmable prefix and then a trimmable suffix leaves a
      middle slice. */
  lemma TrimmedIsMiddle(s: string, t: string, r: string)
    requires |t| <= |s| && t == s[|s| - |t|..]
    requires forall k :: 0 <= k < |s| - |t| ==> IsTrimmable(s[k])
    requires |r| <= |t| && r == t[..|r|]
    requires forall k :: |r| <= k < |t| ==> IsTrimmable(t[k])
    ensures IsMiddle(r, s, |s| - |t|, |s| - |t| + |r|)
  {
    var i := |s| - |t|;
    forall k | i + |r| <= k < |s| ensures IsTrimmable(s[k]) {
      assert s[k] == t[k - i];
    }
  }

  /** `s.trim().isEmpty()`. */
  predicate IsBlank(s: string) {
    Trim(s) == []
  }

  /** `needle` occurs in `hay` starting at index `i`. */
  predicate OccursAt(hay: string, needle: string, i: nat) {
    i + |needle| <= |hay| && hay[i..i + |needle|] == needle
  }

  /** `String.contains`: some position of `hay` starts a copy of `needle`. */
  function Contains(hay: string, needle: string): (b: bool)
    ensures b <==> exists i: nat :: i <= |hay| && OccursAt(hay, needle, i)
    decreases |hay|
  {
    if OccursAt(hay, needle, 0) then true
    else if hay == [] then false
    else
      var b := Contains(hay[1..], needle);
      assert forall i: nat :: OccursAt(hay[1..], needle, i) <==> OccursAt(hay, needle, i + 1) by {
        forall i: nat ensures OccursAt(hay[1..], needle, i) <==> OccursAt(hay, needle, i + 1) {
          if i + 1 + |needle| <= |hay| {
            assert hay[1..][i..i + |needle|] == hay[i + 1..i + 1 + |needle|];
          }
        }
      }
      assert b ==> exists i: nat :: i <= |hay| && OccursAt(hay, needle, i) by {
        if b {
          var i: nat :| i <= |hay| - 1 && OccursAt(hay[1..], needle, i);
          assert OccursAt(hay, needle, i + 1);
        }
      }
      assert (exists i: nat :: i <= |hay| && OccursAt(hay, needle, i)) ==> b by {
        if exists i: nat :: i <= |hay| && OccursAt(hay, needle, i) {
          var i: nat :| i <= |hay| && OccursAt(hay, needle, i);
          assert i != 0;
          assert OccursAt(hay[1..], needle, i - 1);
        }
      }
      b
  }

  /** `String.compareTo`: the difference of the first differing characters,
      or of the lengths when one string is a prefix of the other. */
  function CompareTo(a: string, b: string): int
    decreases |a|
  {
    if a == [] || b == [] then |a| - |b|
    else if a[0] != b[0] then a[0] as int - b[0] as int
    else CompareTo(a[1..], b[1..])
  }

  lemma {:induction false} CompareToZero(a: string, b: string)
    ensures CompareTo(a, b) == 0 <==> a == b
    decreases |a|
  {
    if a != [] && b != [] && a[0] == b[0] {
      CompareToZero(a[1..], b[1..]);
      assert a == [a[0]] + a[1..];
      assert b == [b[0]] + b[1..];
    }
  }

  lemma {:induction false} CompareToAntisymmetric(a: string, b: string)
    ensures CompareTo(a, b) < 0 <==> CompareTo(b, a) > 0
    decreases |a|
  {
    if a != [] && b != [] && a[0] == b[0] {
      CompareToAntisymmetric(a[1..], b[1..]);
    }
  }

  lemma {:induction false} CompareToTransitive(a: string, b: string, c: string)
    requires CompareTo(a, b) <= 0 && CompareTo(b, c) <= 0
    ensures CompareTo(a, c) <= 0
    decreases |a|
  {
    if a != [] && b != [] && c != [] && a[0] == b[0] && b[0] == c[0] {
      CompareToTransitive(a[1..], b[1..], c[1..]);
    }
  }

  /** The pieces of `s` between the occurrences of `sep`, empty pieces included:
      the first step of `String.split`. */
  function Pieces(s: string, sep: char): (r: seq<string>)
    ensures |r| >= 1
    ensures forall i :: 0 <= i < |r| ==> sep !in r[i]
    decreases |s|
  {
    if s == [] then [""]
    else
      var rest := Pieces(s[1..], sep);
      if s[0] == sep then [""] + rest else [[s[0]] + rest[0]] + rest[1..]
  }

  /** The pieces joined back with `sep` between them. */
  function Join(ps: seq<string>, sep: char): string
    decreases |ps|
  {
    if ps == [] then "" else if |ps| == 1 then ps[0] else ps[0] + [sep] + Join(ps[1..], sep)
  }

  lemma {:induction false} JoinPieces(s: string, sep: char)
    ensures Join(Pieces(s, sep), sep) == s
    decreases |s|
  {
    if s != [] {
      JoinPieces(s[1..], sep);
      var rest := Pieces(s[1..], sep);
      if s[0] == sep {
        assert Pieces(s, sep) == [""] + rest;
        assert ([""] + rest)[1..] == rest;
      } else {
        JoinExtendsFirst(s[0], rest, sep);
      }
      assert s == [s[0]] + s[1..];
    }
  }

  /** Putting a character in front of the first piece puts it in front of
      the joined text. */
  lemma JoinExtendsFirst(c: char, ps: seq<string>, sep: char)
    requires |ps| >= 1
    ensures Join([[c] + ps[0]] + ps[1..], sep) == [c] + Join(ps, sep)
  {
    var qs := [[c] + ps[0]] + ps[1..];
    assert qs[1..] == ps[1..];
  }

  lemma {:induction false} PiecesAfterField(field: string, sep: char, rest: string)
    requires sep !in field
    ensures Pieces(field + [sep] + rest, sep) == [field] + Pieces(rest, sep)
    decreases |field|
  {
    var s := field + [sep] + rest;
    if field == [] {
      assert s[1..] == rest;
    } else {
      assert s[1..] == field[1..] + [sep] + rest;
      PiecesAfterField(field[1..], sep, rest);
      assert [field[0]] + field[1..] == field;
    }
  }

  lemma {:induction false} PiecesOfField(field: string, sep: char)
    requires sep !in field
    ensures Pieces(field, sep) == [field]
    decreases |field|
  {
    if field != [] {
      PiecesOfField(field[1..], sep);
      assert [field[0]] + field[1..] == field;
    }
  }

  /** Drops empty strings from the end, as `split` with limit 0 does. */
  function DropTrailingEmpty(ps: seq<string>): (r: seq<string>)
    ensures |r| <= |ps| && r == ps[..|r|]
    ensures r != [] ==> r[|r| - 1] != ""
    ensures forall i :: |r| <= i < |ps| ==> ps[i] == ""
    decreases |ps|
  {
    if ps != [] && ps[|ps| - 1] == "" then DropTrailingEmpty(ps[..|ps| - 1]) else ps
  }

  /** `k` empty strings. */
  function Empties(k: nat): (r: seq<string>)
    ensures |r| == k && forall i :: 0 <= i < k ==> r[i] == ""
  {
    seq(k, _ => "")
  }

  /** `s.split(",")` for a one-character separator: a string without the
      separator comes back whole; otherwise the pieces, trailing empty ones
      dropped. */
  function Split(s: string, sep: char): (r: seq<string>)
    ensures sep !in s ==> r == [s]
    ensures forall i :: 0 <= i < |r| ==> sep !in r[i]
  {
    if sep !in s then [s] else DropTrailingEmpty(Pieces(s, sep))
  }

  /** Put back together with the empty pieces `split` dropped, the fields
      give `s` again; and when `s` holds the separator, no empty field is
      left at the end. */
  lemma SplitJoinsBack(s: string, sep: char)
    ensures exists k: nat :: Join(Split(s, sep) + Empties(k), sep) == s
    ensures sep in s && Split(s, sep) != [] ==> Split(s, sep)[|Split(s, sep)| - 1] != ""
  {
    if sep !in s {
      assert [s] + Empties(0) == [s];
    } else {
      var ps := Pieces(s, sep);
      var r := DropTrailingEmpty(ps);
      JoinPieces(s, sep);
      assert ps == r + Empties(|ps| - |r|);
    }
  }
}
